=== FILE: README.md ===
# Multi-agent task orchestration: a Dafny model

This project models the core of a small "AI team" system. The server is a
Flask application. It keeps a table of agents (each with a type such as
`text` or `code` and a status of `idle`, `busy` or `error`) and a table of
tasks (each with a type, a priority and a status of `pending`, `in_progress`,
`completed` or `failed`), and exposes REST endpoints over them:

- CRUD on tasks and agents;
- the simulated execution of a task;
- an "orchestrator" that does three things:
  - breaks a free-text Norwegian request into proposed tasks by keyword
    rules;
  - turns a list of proposals into stored tasks;
  - reports per-status statistics and recommends an idle agent.

The client is a React single-page dashboard that calls those endpoints.

Both tables live in one `Store` value: id-keyed maps plus the next fresh
ids. Every endpoint is a pure function from the store and the decoded
request body to a new store and a response (`Reply`). The response is a
body with its status code, or an error with its code and message. The
client is a set of pure functions too. Each takes the component state and
what `fetch` gave back, and returns:

- the next state;
- the request it sent;
- the refreshes it started.

Modules follow the source files:

| module | file | models |
|---|---|---|
| `Common` | `common.dfy` | JSON values; Python's `not data`, `in` and `lower` |
| `TaskRecord` | `task.dfy` | `task.py` |
| `AgentRecord` | `agent.dfy` | `agent.py` |
| `Store` | `store.dfy` | the shared database and the idle-agent auto-assignment |
| `Sorting` | `sorting.dfy` | `ORDER BY … DESC` |
| `TasksApi` | `tasks_api.dfy` | `tasks.py` |
| `AgentsApi` | `agents_api.dfy` | `agents.py` |
| `Orchestrator` | `orchestrator.dfy` | `orchestrator.py` |
| `Client` | `client.dfy` | `App.jsx` |

Modelling choices:

- **Query order.** `.first()` and `.all()` without `ORDER BY` return rows
  in ascending id order. So the agent auto-assignment picks the idle agent
  of the right type with the lowest id.
- **Ids.** Ids come from counters that start at 1 and only grow.
- **Time.** Time is an abstract `now: nat` that every write passes in.
- **JSON columns.** A JSON column holds the decoded value itself, so
  `json.dumps` then `json.loads` is the identity.
- **Request bodies.** A request body is a record of `Option` fields:
  - `None` means the key is absent.
  - A body that Python's `not data` rejects is `None` as a whole. These
    are `null`, `false`, `0`, `""`, `[]` and `{}`.
  - `agent_id` and `parameters` of `POST /tasks` keep the value sent
    whenever the key is present, `null` included, because the handler
    tests only for the key.
- **Update bodies.** Update bodies also record whether they hold keys the
  handler ignores. So `{"foo": 1}` counts as non-empty, as Python treats
  it.

Behaviour of the code that the model follows, and that a reader might
not expect:

- **Refreshes.** A refresh stores whatever JSON body came back, an error
  body included. Only when `fetch` or `json()` throws is the old list
  kept (App.jsx:39-67). See `Client.ApplyFetch`.
- **Analyze.** `analyzeRequest` stores any decoded reply as the analysis
  result, a 400 error body included (App.jsx:127-128). See
  `Client.AnalyzeRequest`.
- **Analysis reply.** The server sends `original_request`,
  `suggested_tasks` and `coordination_strategy` and nothing else
  (orchestrator.py:79-83). Each proposal carries `type` and `priority`.
- **Task execution.** The server runs the simulation inside the execute
  request. It answers with the task already `completed` or `failed`
  (tasks.py:117-140), so the execute reply never shows it `in_progress`.

## Model

| member | source | states |
|---|---|---|
| TaskRecord.NewTask | task.py:8-23 | A new task has the given title, type and description, status `pending`, priority 1 unless one is given, no parameters, result, error, agent or completion time, and both timestamps equal to the creation time |
| TaskRecord.SetParameters | task.py:49-50 | Storing parameters sets that column and leaves every other column as it was |
| TaskRecord.GetParameters | task.py:52-53 | Reading parameters gives the stored value, or an empty object when the column is unset |
| TaskRecord.SetResult | task.py:55-58 | Storing a result sets it; the completion time is stamped only when the task is already `completed`, and nothing else changes |
| TaskRecord.GetResult | task.py:60-61 | Reading the result gives the stored value, or JSON null when unset |
| TaskRecord.ParametersRoundTrip | task.py:49-53 | Parameters read back exactly as they were stored |
| TaskRecord.ResultRoundTrip | task.py:55-61 | A result reads back exactly as it was stored, whatever the status |
| TaskRecord.TaskDict | task.py:31-47 | The task dictionary has exactly the fourteen keys. It carries id, title, description, status, type and priority unchanged. Parameters and result come through their getters, so `{}` and null when unset. Error text, agent and completion time are the stored value, or null when unset |
| TaskRecord.NewTaskDict | task.py:31-47 | A freshly created task is sent as `pending` with `{}` parameters and null result, agent and completion time |
| TaskRecord.SimulateExecution | tasks.py:142-186 | The simulation raises exactly for a `text` task whose parameters are not a dictionary; otherwise it returns the result of the task's own type, and a `text` task without `prompt` gets the "No prompt provided" text |
| AgentRecord.NewAgent | agents.py:26-31 | A new agent has the given name and type, description `''` and status `idle` unless given, no capabilities, and both timestamps equal to the creation time |
| AgentRecord.SetCapabilities | agent.py:32-33 | Storing capabilities sets that column only |
| AgentRecord.GetCapabilities | agent.py:35-36 | Reading capabilities gives the stored value, or `{}` when unset |
| AgentRecord.CapabilitiesRoundTrip | agent.py:32-36 | Capabilities read back exactly as they were stored |
| AgentRecord.AgentDict | agent.py:20-30 | The agent dictionary has exactly the eight keys, carries id, name, type, description and status unchanged, and sends `{}` for unset capabilities |
| Store.FirstIdle | tasks.py:47 | The scan finds an idle agent of the type in the id range, with no idle agent of that type at a lower id, or reports that none exists in the range |
| Store.PickIdle | tasks.py:47 | The auto-assignment query returns the lowest-id idle agent of the type, or nothing exactly when no idle agent of the type exists |
| Store.AutoAssign | tasks.py:46-50 | Auto-assignment marks exactly the picked agent `busy`, changes no task and, with no idle agent of the type, changes nothing at all |
| Store.AddTask | tasks.py:52-53 | A new task is stored under the next id, the id counter moves past it, and the store stays consistent |
| Store.PutTask | tasks.py:89 | Committing an edited task replaces that row only and keeps the store consistent |
| Store.FreeAgent | tasks.py:128-132 | Freeing sets the referenced agent, when it still exists, back to `idle`, and leaves every other agent and every task alone |
| Store.ScanAgents | agents.py:9 | The scan lists, in increasing order, exactly the ids in the range of agents that satisfy the filter |
| Store.AgentsWhere | orchestrator.py:159 | A filtered agent query returns stored rows that satisfy the filter, in ascending id order, and every stored agent that satisfies it |
| Sorting.KeysDescending | tasks.py:12 | Ordering by a column descending lists every row id exactly once (a permutation of the keys), in non-increasing column order |
| Sorting.InsertDescending | tasks.py:12 | Inserting an id keeps a descending listing descending and adds exactly that id |
| Sorting.DescendingTail | tasks.py:12 | The tail of a descending listing is descending, and its head outranks or ties every later entry |
| Sorting.LeadDescending | tasks.py:12 | An id ranked above a descending listing's head may lead it |
| Sorting.ListsSetOnce | orchestrator.py:139 | A listing that is a permutation of a key set has as many entries as the set and no repeats |
| Sorting.TopOutranksRest | orchestrator.py:139 | The first n entries of a descending listing outrank every key left out |
| TasksApi.GetTask | tasks.py:15-19 | Fetching a task succeeds exactly when the id is stored, with that row; otherwise 404 |
| TasksApi.DecodeNewTask | tasks.py:24-41 | A body Python's `not data` rejects, or one that is not an object, reads as no body. Otherwise `agent_id` and `parameters` are present exactly when their keys are and hold the value sent, `null` included. `title`, `task_type` and `description` are present exactly when they hold strings, and `priority` exactly when it holds a number, each with the value sent |
| TasksApi.AgentRef | tasks.py:42-44 | An `agent_id` names a stored agent only when it is the number of one; `null` or any other non-number names none |
| TasksApi.GetTasks | tasks.py:9-13 | The task list holds every stored task exactly once, newest creation time first, each as its dictionary |
| TasksApi.CreatedAt | tasks.py:12 | Every stored task, and nothing else, is ranked, and each task's rank is its creation time |
| TasksApi.CreateTask | tasks.py:21-55 | Creation is refused with 400, changing nothing, exactly when the body is falsy or lacks `title` or `task_type`. Otherwise a `pending` task is stored under a fresh id with the body's fields and defaults. When the `agent_id` key is present, whatever its value, the task is linked to that agent only if it exists, and no agent changes. Without the key, the lowest-id idle agent of the type is assigned and marked `busy` |
| TasksApi.NullAgentIdAssignsNone | tasks.py:41-44 | A body with `"agent_id": null` takes the explicit branch: the task gets no agent and no agent becomes `busy`, even when an idle agent of the type exists |
| TasksApi.PatchTask | tasks.py:66-87 | A patch changes exactly the fields present, keeps id, type, agent, parameters and creation time, and stamps the completion time exactly when the task moves into `completed` or gets a result while `completed` |
| TasksApi.UpdateTask | tasks.py:57-91 | An unknown id gives 404 before the body is looked at. An empty body gives 400, changing nothing. Otherwise only that task changes, and on a move into `completed` its agent is freed |
| TasksApi.DeleteTask | tasks.py:93-107 | An unknown id gives 404. Otherwise exactly that task is removed, and its agent is freed only when the task was `pending` or `in_progress` |
| TasksApi.ExecuteTask | tasks.py:109-140 | Only a `pending` task runs; any other status gives 400, changing nothing. Only status, result, error text, completion time and update time can change. A successful simulation completes the task with its result and a completion time and frees its agent. A raised exception marks it `failed` with the error text, keeps result and completion time, and leaves every agent as it was |
| TasksApi.ExecuteOnlyOnce | tasks.py:114-118 | Executing the same task a second time is refused with 400 and changes nothing |
| AgentsApi.GetAgents | agents.py:6-10 | The agent list holds every stored agent exactly once, in ascending id order |
| AgentsApi.ListsEveryKey | agents.py:9 | A listing of stored agents in strictly ascending id order that names every key has exactly one entry per agent |
| AgentsApi.DistinctIdsCount | agents.py:9 | A listing with strictly increasing ids has as many distinct ids as entries |
| AgentsApi.GetAgent | agents.py:12-16 | Fetching an agent succeeds exactly when the id is stored, with that row; otherwise 404 |
| AgentsApi.CreateAgent | agents.py:18-39 | Creation is refused with 400, changing nothing, exactly when the body is falsy or lacks `name` or `type`. Otherwise the agent is stored under a fresh id with description `''` and status `idle` by default and the body's capabilities, and no other row changes |
| AgentsApi.PatchAgent | agents.py:50-59 | A patch changes exactly the fields present, accepts any status, and keeps id and creation time |
| AgentsApi.UpdateAgent | agents.py:41-63 | An unknown id gives 404 before the body is looked at. An empty body gives 400. Otherwise only that agent changes |
| AgentsApi.DeleteAgent | agents.py:65-72 | An unknown id gives 404. Otherwise exactly that agent is removed, and the tasks that refer to it are kept unchanged |
| AgentsApi.AgentTypes | agents.py:74-85 | The type list has the six types, in the server's order, each once and each with a non-empty label |
| Common.ContainsIff | orchestrator.py:22 | Python's `word in text` holds exactly when the word occurs in the text at some position |
| Common.ContainsOccurs | orchestrator.py:22 | A word Python's `in` finds occurs in the text at some position |
| Common.OccursContains | orchestrator.py:22 | A word occurring at some position is found by Python's `in` |
| Common.Lower | orchestrator.py:16 | Lowering keeps the length and lowers each character on its own |
| Orchestrator.Fired | orchestrator.py:22-68 | The rules that fire are listed in rule order, each once, and every rule whose keyword occurs is listed |
| Orchestrator.Position | orchestrator.py:19-77 | A type's first position in a list is correct, and no earlier entry equals it |
| Orchestrator.Rank | orchestrator.py:19-77 | Only the six planner types rank below 6, the rank names the type's position, and each of the six types ranks exactly at its own position in rule order |
| Orchestrator.RuleTable | orchestrator.py:22-77 | There are six rules, each proposing a task of the type at its own rank, and the fallback proposes a `text` task |
| Orchestrator.Plan | orchestrator.py:19-77 | Over any rule list, with no rule firing the plan is the fallback alone; otherwise it has one entry per firing rule, in rule order, each that rule's proposal |
| Orchestrator.RulePriorities | orchestrator.py:22-77 | The proposals have priorities 2, 2, 1, 1, 3, 3 in rule order, and the fallback has priority 1 |
| Orchestrator.PlanRanked | orchestrator.py:19-77 | Over any rank-ordered rule list, the plan holds each firing rule's proposal once, only those, in increasing rank; or the fallback alone exactly when no rule fires |
| Orchestrator.SuggestTasks | orchestrator.py:19-77 | The planner proposes between one and six tasks. Every rule with a matching keyword contributes its proposal; when any rule matches, only matching rules contribute. The proposals come in strictly increasing rule order, so no type appears twice. With no match, the single fallback proposal is made |
| Orchestrator.AutomatiseringYieldsCodeAndWorkflow | orchestrator.py:38-52 | A request mentioning "automatisering" gets both the code and the workflow proposal, because the word also contains "automatiser" |
| Orchestrator.AutomatiseringFires | orchestrator.py:38-52 | A request containing "automatisering" fires the code rule and, through "automatiser", the workflow rule |
| Orchestrator.DecodeAnalyze | orchestrator.py:11-13 | A body Python's `not data` rejects, or one that is not an object, reads as no body. Otherwise `request` is present exactly when it holds a string, and it is the text sent |
| Orchestrator.Analyze | orchestrator.py:8-83 | Analysis is refused with 400 exactly when the body is falsy or lacks `request`. Otherwise it echoes the original request, plans on the lowered text and names the fixed strategy |
| Orchestrator.SuggestionJson | orchestrator.py:23-28 | A proposal is sent with exactly the keys `type`, `title`, `description` and `priority`, the type under `type` |
| Orchestrator.AnalysisJson | orchestrator.py:79-83 | The analysis is sent with exactly its three keys. It echoes the original request and the coordination strategy as strings, and sends each proposal in order as its dictionary |
| Orchestrator.DecodePlanItem | orchestrator.py:97-101 | A plan entry has all three required keys exactly when it is an object holding strings under `title`, `description` and `type`. The title, description, type and priority read are the values sent |
| Orchestrator.DecodePlan | orchestrator.py:88-96 | A body that is falsy, not an object, or lacks `tasks` reads as no plan. A `tasks` list gives one entry per element, in order. Any other `tasks` value gives a single incomplete entry, so the request fails |
| Orchestrator.SuggestionRoundTrip | orchestrator.py:96-101 | A proposal as the server sends it reads back, in the plan handler, as a complete entry with the same fields |
| Orchestrator.PlanTask | orchestrator.py:97-103 | A plan entry becomes a `pending` task with the entry's title, description and type, and priority 1 unless given |
| Orchestrator.PlanOf | App.jsx:141-143 | A list of proposals is sent back as the same number of complete plan entries, each carrying its proposal's fields |
| Orchestrator.CreatePlanTasks | orchestrator.py:96-112 | Each entry gets one task, in entry order, under consecutive fresh ids, and no earlier task changes. Each task gets the lowest-id agent of its type that was idle before the plan and not taken by an earlier entry, and goes without one only when no such agent is left. No agent gets two tasks. Exactly the assigned agents become `busy` |
| Orchestrator.KeysStep | orchestrator.py:111 | Adding a task and then the rest of the plan leaves the old tasks alone and fills exactly the next consecutive ids |
| Orchestrator.StoredStep | orchestrator.py:111-112 | The task for the first entry followed by the tasks for the rest are the tasks for the whole plan, in order |
| Orchestrator.AgentsStep | orchestrator.py:106-109 | Once an agent is assigned to the first entry it is busy, so no later entry gets it, and the agents marked busy are exactly those assigned |
| Orchestrator.AssignedCons | orchestrator.py:106-109 | The agents assigned to a first task and a list after it are the first task's agent and those of the list |
| Orchestrator.LowestFreeStep | orchestrator.py:106-109 | If the first entry takes the agent auto-assignment picks and the rest take the lowest agents still free afterwards, every entry takes the lowest agent still free before it |
| Orchestrator.ExecutePlan | orchestrator.py:85-121 | A falsy body or one without `tasks` is refused with 400. An entry lacking `title`, `description` or `type` fails the whole request with 500 before the commit, so nothing is stored. Otherwise one task per entry is stored, in order, under the next ids, no earlier task changes, and each task gets the lowest-id idle agent of its type still free, which becomes `busy`. The total equals the number of entries |
| Orchestrator.ExecuteSuggestions | orchestrator.py:96-120 | Sending proposals back as a plan always succeeds, with one `pending` task per proposal, in order, carrying its type, title and priority |
| Orchestrator.AgentStatistics | orchestrator.py:127-142 | The agent statistics name exactly the statuses some agent has, each with the number of agents that have it (at least one) |
| Orchestrator.TaskStatistics | orchestrator.py:133-143 | The task statistics name exactly the statuses some task has, each with the number of tasks that have it (at least one) |
| Orchestrator.Populated | orchestrator.py:142 | A status held by some row has a count of at least one |
| Orchestrator.UpdatedAt | orchestrator.py:139 | Every stored task, and nothing else, is ranked, and each task's rank is its update time |
| Orchestrator.Recent | orchestrator.py:144 | Listing ids as rows gives the stored rows in the same order, and no other row |
| Orchestrator.GetOrchestratorStatus | orchestrator.py:123-146 | The status holds both statistics and `operational`, and min(5, task count) distinct stored tasks, most recently updated first. No task left out was updated later than one that is shown |
| Orchestrator.RecentActivity | orchestrator.py:139 | The recent activity holds min(5, task count) distinct stored tasks, most recently updated first, and no task left out was updated later than one shown |
| Orchestrator.TopRows | orchestrator.py:139 | The rows of the first n ids of a listing by update time, newest first, are distinct stored tasks, newest first, and none left out is newer |
| Orchestrator.RecommendAgent | orchestrator.py:148-178 | A recommendation is refused with 400 exactly when the body is falsy or lacks `task_type`. Otherwise it answers 200 with exactly the idle agents of the type, each once in ascending id order, with the first, lowest-id one recommended. With none idle, there is no recommendation, and every agent of the type is listed once in ascending id order |
| Orchestrator.RecommendMatchesAutoAssign | orchestrator.py:159-172 | The recommended agent is the one task creation would assign, and there is a recommendation exactly when creation would assign someone |
| Client.ApplyFetch | App.jsx:39-67 | A refresh stores whatever body came back in its own slot; an exception leaves the state unchanged |
| Client.Mounted | App.jsx:12-37 | After the three refreshes started on mount come back in order, each list slot holds its reply's body, or its initial value when the request threw, and the form's title, type and description, the request text and the analysis are still empty |
| Client.MountedSendsNothing | App.jsx:33-37 | Right after mounting, creating a task and analysing both send nothing and change nothing |
| Client.CreateTask | App.jsx:69-96 | Nothing is sent exactly when the title or the type is empty. The request carries the form's fields and priority 2. Only an ok response clears the three fields and refreshes tasks then agents |
| Client.CreateTwiceSendsOnce | App.jsx:69-92 | Pressing create again after an accepted create sends nothing, because the form was cleared |
| Client.CreateTaskAccepted | App.jsx:78-83 | Whatever the client sends, the server accepts and stores as a `pending` task with the form's title, description and type and priority 2 |
| Client.ExecuteTask | App.jsx:98-111 | Execute always sends a body-less request for that task, never changes the state, and refreshes tasks then agents exactly when the response is ok |
| Client.ExecuteOfferedIffRuns | App.jsx:394-399 | The execute button is shown for a task exactly when the server would run it |
| Client.AnalyzeRequest | App.jsx:113-132 | Nothing is sent exactly when there is no request text. Any reply body, an error body included, is stored as the analysis result; an exception changes nothing |
| Client.AnalyzeAccepted | App.jsx:113-128 | A request the client sends is accepted by the server and gets at least one proposal |
| Client.ExecutePlan | App.jsx:134-155 | The plan request carries the proposals as they are. Only an ok response clears the analysis and its text and refreshes tasks then agents |
| Client.PlanBody | App.jsx:141-143 | The plan body is an object whose only possible key is `tasks`. It is present exactly when the analysis has `suggested_tasks`, and then holds them unchanged |
| Client.PlanWithoutSuggestionsRefused | App.jsx:141-143 | An analysis without `suggested_tasks`, such as an error body, is sent back as `{}`, which the server refuses with 400 and no change |
| Client.AnalyzeIdleAfterPlan | App.jsx:146-148 | After an accepted plan, analyze sends nothing until new text is typed |
| Client.PlanEndToEnd | App.jsx:450 | The proposals the server sent, sent back by the client, are decoded as exactly those proposals, and the server creates one `pending` task per proposal, in order |
| Client.TaskTypeLabel | App.jsx:183-193 | A known type shows its label; any other type shows itself |
| Client.LabelsCoverAgentTypes | App.jsx:184-191 | The label table covers exactly the six types of the agent-type list, with six distinct non-empty labels |
| Client.TaskTypeLabelAsWritten | App.jsx:192 | As written, a name inherited from `Object.prototype` yields the inherited member instead of a string, `undefined` yields `undefined`, and any other string yields its label or itself |
| Client.PrototypeTypeLeaks | App.jsx:192 | The type `constructor`, which the server accepts, is labelled with a function as written, and with its own name as intended |
| Client.SuggestionBadgeBlank | App.jsx:446 | As written, the badge under every proposal is blank, since the server sends the type under `type` |
| Client.SuggestionBadgeAsWritten | App.jsx:446 | As written, a proposal without a string `task_type` member gets an `undefined` badge; one with such a member gets its label |
| Client.SuggestionBadge | App.jsx:446 | Reading `type`, a proposal of a known type shows that type's label, any other type shows itself, and a proposal without `type` shows nothing |
| Client.BadgeOfLabelled | App.jsx:446 | Reading `type`, a proposal of a labelled type shows exactly that label |
| Client.SuggestionBadgeLabels | App.jsx:446 | Reading `type`, the badge under every proposal the planner makes shows the label of the proposal's type |
| Client.RankedTypeLabelled | App.jsx:184-191 | Every type the planner can propose has a label |
| Client.CountStatus | App.jsx:250-268 | A status count never exceeds the list length, is zero exactly when no item has the status, and equals the length exactly when every item has it |
| Client.TaskFiguresFit | App.jsx:249-268 | The four task figures on the dashboard add up to at most the number of tasks |
| Client.DashboardOf | App.jsx:236-281 | The dashboard figures exist exactly when both lists are arrays. The agent figure is the list length. The idle figure and the four task figures are the number of entries with that status. The four task figures fit in the task count, and the recent list is the first five tasks |
| Client.AgentList | agents.py:6-10 | The agent list the client receives has one dictionary per stored agent, in the server's order |
| Client.Dicts | agents.py:10 | Each listed agent becomes its dictionary, in list order |
| Client.DashboardMatchesServer | App.jsx:236-238 | After refreshing agents, the dashboard shows the number of stored agents and the same idle count as the server's statistics |
| Client.ListedStatuses | App.jsx:238 | An agent dictionary has a status exactly when the agent has it |
| Client.ListedIds | App.jsx:238 | The listed agents with a status are exactly the stored agents with it |
| Client.StatusIds | App.jsx:238 | The listed ids with a status are exactly the ids of the listed agents that have it |
| Client.StatusCount | App.jsx:238 | Counting a status over the dictionaries gives the number of distinct agents with that status |
| Client.DictStatus | agent.py:20-30 | An agent dictionary carries the agent's status |
| Client.StatusIcon | App.jsx:157-168 | `completed`, `in_progress` and `failed` get their own icon and colour; every other status gets the grey clock |
| Client.AgentStatusColor | App.jsx:170-181 | `idle`, `busy` and `error` get green, blue and red; any other status gets grey |
| Client.StatusesDistinguished | App.jsx:157-181 | `pending` looks like an unknown status, and the other task statuses are told apart from it and from each other. The three agent statuses and an unknown one get four different colours |
| Client.TaskBadgeColor | App.jsx:389-391 | A `completed` task badge is green, a `failed` one red, and every other blue |

## Left out

- Transport and persistence:
  - HTTP routing, Flask, SQLAlchemy sessions and JSON text are left out.
  - Bodies arrive already decoded.
  - A wrongly typed value for a key the handler reads (say a number as
    `title`, or `null` as `priority`) is read as an absent key rather than
    stored as it is. `agent_id` and `parameters` of `POST /tasks` are the
    exceptions: they are kept as sent.
- TasksApi.DecodeNewTask, Orchestrator.DecodeAnalyze and
  Orchestrator.DecodePlan: a truthy body that is not an object is read as
  no body, so it is refused with 400. In Python, `'title' in data` on a
  number or boolean raises `TypeError`, giving 500. On a string it is a
  substring test and on a list a membership test; a string or list that
  passes the test then raises on `data['title']`, giving 500.
- TasksApi.AgentRef: `Agent.query.get` with a value that is not a number
  finds no agent. The coercion SQLAlchemy may apply to a boolean or a
  numeric string is not modelled.
- Store.PutTask, Store.AddTask and every other writer: `updated_at` is the
  `now` passed in. The database clock and `onupdate` timing are not
  modelled.
- TaskRecord.NewTask: `parent_task_id` and the `subtasks` relationship
  (task.py:23-26) are carried but never set, because no handler sets them.
- Ids come from counters that only grow, so SQLite's reuse of the largest
  deleted rowid is not modelled.
- Orchestrator.GetOrchestratorStatus: the timestamp order among tasks
  updated at the same instant is not fixed; the model promises only
  non-increasing update times.
- Orchestrator.ExecutePlan and Orchestrator.DecodePlan (decoding of the
  `tasks` value):
  - A `tasks` value that is not a list is read as a single incomplete
    entry, so it fails with 500.
  - In Python, an empty string, list or dictionary iterates zero times and
    would answer 200 with no tasks.
  - A non-empty string or dictionary raises, as modelled.
- Orchestrator.ExecutePlan: the 500 response body is Flask's default error
  page and is modelled only by its status code.
- Orchestrator.RecommendAgent: the two fixed message strings of the answer
  are not modelled; the agents returned are.
- Common.Lower lowers only ASCII letters, while Python's `str.lower` also
  lowers non-ASCII letters. The planner's keywords are all lower case, so
  only requests with non-ASCII capitals could be read differently.
- Client:
  - Rendering, styling and dark mode are left out.
  - The three refreshes on mount run concurrently, and their interleaving
    is not modelled. `Client.Mounted` takes the replies in the order the
    requests were started; since each writes its own slot, the order does
    not change the final state.
  - The analysis paragraph reads a member the server never sends
    (`analysis`), so it always renders empty; it is not modelled.
  - The agent card's capability lines (App.jsx:312-318) are display only.
- TasksApi.ExecuteTask: the intermediate `in_progress` commit
  (tasks.py:118-119) is not modelled. Execution is one atomic step, so a
  request served while the simulation runs, which could see the task
  `in_progress`, has no counterpart in the model.
- TaskRecord.SimulateExecution: the simulated result values are an opaque
  JSON value tagged with the task type and prompt rather than the literal
  dictionaries.

## Findings

| source | as written | input that shows it | evidently intended | confidence | as-written member | corrected member |
|---|---|---|---|---|---|---|
| App.jsx:446 | The badge under each proposed task labels `task.task_type`, but the analysis endpoint sends each proposal's type under `type` (orchestrator.py:23-28) | Any analysis, e.g. the request "skrive tekst", whose proposal has no `task_type` member, so the badge is blank | Label the member the server sends, `task.type` | high; not executed | Client.SuggestionBadgeAsWritten, shown by Client.SuggestionBadgeBlank | Client.SuggestionBadge, proved by Client.SuggestionBadgeLabels |
| App.jsx:183-193 | `types[type] \|\| type` on an object literal also finds names inherited from `Object.prototype` | A task created with type `constructor`, which `POST /tasks` accepts; its label is `Object`'s constructor function, not a string | Look the type up only among the table's own keys and otherwise show the type | medium; not executed | Client.TaskTypeLabelAsWritten, shown by Client.PrototypeTypeLeaks | Client.TaskTypeLabel, with Client.LabelsCoverAgentTypes and Client.PrototypeTypeLeaks |

=== FILE: agent.dfy ===
/** The agent record (the `agents` table), its JSON-valued `capabilities`
    column and the dictionary sent over the wire. */
module AgentRecord {
  import opened Common

  const IDLE: string := "idle"
  const BUSY: string := "busy"
  const ERROR: string := "error"

  /** One row of the `agents` table. `None` is SQL NULL. */
  datatype Agent = Agent(
    id: nat,
    name: string,
    agentType: string,
    description: string,
    capabilities: Option<Json>,
    status: string,
    createdAt: nat,
    updatedAt: nat)

  /** An agent built the way the server builds one: name and type are
      required, the description defaults to the empty string and the status
      to `idle`. */
  function NewAgent(id: nat, name: string, agentType: string, description: Option<string>,
                    status: Option<string>, now: nat): (a: Agent)
    ensures a.id == id && a.name == name && a.agentType == agentType
    ensures description.None? ==> a.description == ""
    ensures description.Some? ==> a.description == description.value
    ensures status.None? ==> a.status == IDLE
    ensures status.Some? ==> a.status == status.value
    ensures a.capabilities.None?
    ensures a.createdAt == now && a.updatedAt == now
  {
    Agent(id, name, agentType,
          if description.Some? then description.value else "",
          None,
          if status.Some? then status.value else IDLE,
          now, now)
  }

  function SetCapabilities(a: Agent, c: Json): (a': Agent)
    ensures a'.capabilities == Some(c)
    ensures a' == a.(capabilities := a'.capabilities)
  {
    a.(capabilities := Some(c))
  }

  /** The capabilities, or an empty object when the column is NULL. */
  function GetCapabilities(a: Agent): (c: Json)
    ensures a.capabilities.None? ==> c == JObj(map[])
    ensures a.capabilities.Some? ==> c == a.capabilities.value
  {
    if a.capabilities.Some? then a.capabilities.value else JObj(map[])
  }

  lemma CapabilitiesRoundTrip(a: Agent, c: Json)
    ensures GetCapabilities(SetCapabilities(a, c)) == c
  {
  }

  const AgentKeys: set<string> := {
    "id", "name", "type", "description", "capabilities", "status",
    "created_at", "updated_at"}

  /** The dictionary the server sends for an agent: it echoes the stored
      columns and sends `{}` for unset capabilities. */
  function AgentDict(a: Agent): (d: Json)
    ensures d.JObj? && d.fields.Keys == AgentKeys
    ensures d.fields["id"] == JNum(a.id)
    ensures d.fields["name"] == JStr(a.name)
    ensures d.fields["type"] == JStr(a.agentType)
    ensures d.fields["description"] == JStr(a.description)
    ensures d.fields["status"] == JStr(a.status)
    ensures a.capabilities.None? ==> d.fields["capabilities"] == JObj(map[])
    ensures a.capabilities.Some? ==> d.fields["capabilities"] == a.capabilities.value
  {
    JObj(map[
      "id" := JNum(a.id),
      "name" := JStr(a.name),
      "type" := JStr(a.agentType),
      "description" := JStr(a.description),
      "capabilities" := GetCapabilities(a),
      "status" := JStr(a.status),
      "created_at" := JNum(a.createdAt),
      "updated_at" := JNum(a.updatedAt)])
  }
}

=== FILE: agents_api.dfy ===
/** The agent endpoints: list, create, update, delete, and the fixed list
    of agent types. */
module AgentsApi {
  import opened Common
  import opened AgentRecord
  import opened Store

  /** The JSON body of `POST /agents`; `None` marks an absent key. */
  datatype NewAgentBody = NewAgentBody(
    name: Option<string>,
    agentType: Option<string>,
    description: Option<string>,
    status: Option<string>,
    capabilities: Option<Json>)

  /** The JSON body of `PUT /agents/<id>`; `otherKeys` records keys the
      handler ignores, which still make the body non-empty. */
  datatype AgentPatch = AgentPatch(
    name: Option<string>,
    agentType: Option<string>,
    description: Option<string>,
    status: Option<string>,
    capabilities: Option<Json>,
    otherKeys: bool)

  /** `GET /agents`: every agent once, in ascending id order. */
  function GetAgents(s: Store): (r: seq<Agent>)
    requires Valid(s)
    ensures |r| == |s.agents|
    ensures forall i :: 0 <= i < |r| ==> r[i].id in s.agents && s.agents[r[i].id] == r[i]
    ensures forall i, j :: 0 <= i < j < |r| ==> r[i].id < r[j].id
    ensures forall k :: k in s.agents ==> exists i :: 0 <= i < |r| && r[i].id == k
  {
    var r := AgentsWhere(s, (a: Agent) => true);
    ListsEveryKey(s.agents, r);
    r
  }

  /** A listing of stored agents in strictly ascending id order that
      names every key has exactly one entry per agent. */
  lemma ListsEveryKey(agents: map<nat, Agent>, r: seq<Agent>)
    requires forall i :: 0 <= i < |r| ==> r[i].id in agents
    requires forall i, j :: 0 <= i < j < |r| ==> r[i].id < r[j].id
    requires forall k :: k in agents ==> exists i :: 0 <= i < |r| && r[i].id == k
    ensures |r| == |agents|
  {
    var ids := set i | 0 <= i < |r| :: r[i].id;
    assert ids == agents.Keys;
    DistinctIdsCount(r);
  }

  /** A list whose ids strictly increase has as many distinct ids as
      entries. */
  lemma {:induction false} DistinctIdsCount(r: seq<Agent>)
    requires forall i, j :: 0 <= i < j < |r| ==> r[i].id < r[j].id
    ensures |set i | 0 <= i < |r| :: r[i].id| == |r|
  {
    if |r| > 0 {
      var tail := r[1..];
      DistinctIdsCount(tail);
      var all := set i | 0 <= i < |r| :: r[i].id;
      var rest := set i | 0 <= i < |tail| :: tail[i].id;
      forall x | x in all ensures x == r[0].id || x in rest {
        var i :| 0 <= i < |r| && r[i].id == x;
        if i > 0 { assert tail[i - 1].id == x; }
      }
      forall x | x in rest ensures x in all {
        var i :| 0 <= i < |tail| && tail[i].id == x;
        assert r[i + 1].id == x;
      }
      forall i | 0 <= i < |tail| ensures tail[i].id != r[0].id {
        assert tail[i] == r[i + 1];
      }
      assert all == {r[0].id} + rest;
    }
  }

  /** `GET /agents/<id>`. */
  function GetAgent(s: Store, id: nat): (r: Response<Agent>)
    ensures id in s.agents <==> r.Ok?
    ensures r.Ok? ==> r.body == s.agents[id] && r.code == HTTP_OK
    ensures r.Fail? ==> r.code == HTTP_NOT_FOUND
  {
    if id in s.agents then Ok(HTTP_OK, s.agents[id]) else Fail(HTTP_NOT_FOUND, NOT_FOUND_MESSAGE)
  }

  /** `POST /agents`. A body without `name` or `type` is refused and nothing
      changes; otherwise the agent is stored under a fresh id, with the
      description defaulting to `''` and the status to `idle`. */
  function CreateAgent(s: Store, body: Option<NewAgentBody>, now: nat): (r: Reply<Agent>)
    requires Valid(s)
    ensures Valid(r.store)
    ensures r.response.Fail? <==> body.None? || body.value.name.None? || body.value.agentType.None?
    ensures r.response.Fail? ==>
      r == Reply(s, Fail(HTTP_BAD_REQUEST, "Name and type are required"))
    ensures r.response.Ok? ==>
      var b := body.value;
      var id := s.nextAgentId;
      && r.response.code == HTTP_CREATED
      && r.store.tasks == s.tasks && r.store.nextTaskId == s.nextTaskId
      && r.store.nextAgentId == id + 1
      && r.store.agents.Keys == s.agents.Keys + {id}
      && (forall k :: k in s.agents ==> r.store.agents[k] == s.agents[k])
      && var a := r.store.agents[id];
      && r.response.body == a
      && a.name == b.name.value && a.agentType == b.agentType.value
      && a.description == (if b.description.Some? then b.description.value else "")
      && a.status == (if b.status.Some? then b.status.value else IDLE)
      && a.capabilities == b.capabilities
  {
    if body.None? || body.value.name.None? || body.value.agentType.None? then
      Reply(s, Fail(HTTP_BAD_REQUEST, "Name and type are required"))
    else
      var b := body.value;
      var id := s.nextAgentId;
      var a := NewAgent(id, b.name.value, b.agentType.value, b.description, b.status, now).(capabilities := b.capabilities);
      Reply(s.(agents := s.agents[id := a], nextAgentId := id + 1), Ok(HTTP_CREATED, a))
  }

  predicate IsEmptyPatch(p: AgentPatch)
  {
    && p.name.None? && p.agentType.None? && p.description.None?
    && p.status.None? && p.capabilities.None? && !p.otherKeys
  }

  /** The agent after applying a patch: the fields present change, any
      status is accepted, and nothing else changes. */
  function PatchAgent(a: Agent, p: AgentPatch, now: nat): (a': Agent)
    ensures a'.id == a.id && a'.createdAt == a.createdAt
    ensures a'.name == (if p.name.Some? then p.name.value else a.name)
    ensures a'.agentType == (if p.agentType.Some? then p.agentType.value else a.agentType)
    ensures a'.description == (if p.description.Some? then p.description.value else a.description)
    ensures a'.status == (if p.status.Some? then p.status.value else a.status)
    ensures a'.capabilities == (if p.capabilities.Some? then p.capabilities else a.capabilities)
  {
    a.(name := if p.name.Some? then p.name.value else a.name,
       agentType := if p.agentType.Some? then p.agentType.value else a.agentType,
       description := if p.description.Some? then p.description.value else a.description,
       status := if p.status.Some? then p.status.value else a.status,
       capabilities := if p.capabilities.Some? then p.capabilities else a.capabilities,
       updatedAt := now)
  }

  /** `PUT /agents/<id>`. An unknown id is answered 404 before the body is
      looked at; an empty body is refused; otherwise only that agent
      changes. */
  function UpdateAgent(s: Store, id: nat, body: Option<AgentPatch>, now: nat): (r: Reply<Agent>)
    requires Valid(s)
    ensures Valid(r.store)
    ensures id !in s.agents ==> r == Reply(s, Fail(HTTP_NOT_FOUND, NOT_FOUND_MESSAGE))
    ensures id in s.agents && (body.None? || IsEmptyPatch(body.value)) ==>
      r == Reply(s, Fail(HTTP_BAD_REQUEST, "No data provided"))
    ensures r.response.Ok? <==> id in s.agents && body.Some? && !IsEmptyPatch(body.value)
    ensures id in s.agents && body.Some? && !IsEmptyPatch(body.value) ==>
      var a' := PatchAgent(s.agents[id], body.value, now);
      && r.store == s.(agents := s.agents[id := a'])
      && r.response == Ok(HTTP_OK, a')
  {
    if id !in s.agents then Reply(s, Fail(HTTP_NOT_FOUND, NOT_FOUND_MESSAGE))
    else if body.None? || IsEmptyPatch(body.value) then Reply(s, Fail(HTTP_BAD_REQUEST, "No data provided"))
    else
      var a' := PatchAgent(s.agents[id], body.value, now);
      Reply(s.(agents := s.agents[id := a']), Ok(HTTP_OK, a'))
  }

  /** `DELETE /agents/<id>`. Exactly that agent is removed; tasks that
      refer to it keep its id. */
  function DeleteAgent(s: Store, id: nat): (r: Reply<Json>)
    requires Valid(s)
    ensures Valid(r.store)
    ensures id !in s.agents ==> r == Reply(s, Fail(HTTP_NOT_FOUND, NOT_FOUND_MESSAGE))
    ensures id in s.agents ==>
      && r.store.agents.Keys == s.agents.Keys - {id}
      && (forall k :: k in r.store.agents ==> r.store.agents[k] == s.agents[k])
      && r.store.tasks == s.tasks
      && r.store.nextTaskId == s.nextTaskId && r.store.nextAgentId == s.nextAgentId
      && r.response == Ok(HTTP_OK, JObj(map["message" := JStr("Agent deleted successfully")]))
  {
    if id !in s.agents then Reply(s, Fail(HTTP_NOT_FOUND, NOT_FOUND_MESSAGE))
    else Reply(s.(agents := s.agents - {id}), Ok(HTTP_OK, JObj(map["message" := JStr("Agent deleted successfully")])))
  }

  /** One entry of `GET /agents/types`. */
  datatype TypeOption = TypeOption(value: string, display: string)

  /** The six task and agent types, in the order the server lists them. */
  const TYPE_VALUES: seq<string> := ["text", "visual", "code", "workflow", "customer_service", "sales"]

  /** `GET /agents/types`: six values in a fixed order, each with a
      non-empty label. */
  function AgentTypes(): (r: seq<TypeOption>)
    ensures |r| == 6
    ensures forall i :: 0 <= i < 6 ==> r[i].value == TYPE_VALUES[i] && r[i].display != ""
    ensures forall i, j :: 0 <= i < j < 6 ==> r[i].value != r[j].value
  {
    [ TypeOption("text", "Text Generation"),
      TypeOption("visual", "Visual Content"),
      TypeOption("code", "Code & Integration"),
      TypeOption("workflow", "Workflow Orchestration"),
      TypeOption("customer_service", "Customer Service"),
      TypeOption("sales", "Sales & Marketing") ]
  }
}

=== FILE: client.dfy ===
/** The dashboard client (`App.jsx`): its state, the four actions that talk
    to the server, the refreshes, the dashboard figures and the label and
    colour helpers. Every action is a function of the state and of what
    `fetch` gave back, so the network is a parameter. */
module Client {
  import opened Common
  import opened TaskRecord
  import opened AgentRecord
  import opened Store
  import TasksApi
  import AgentsApi
  import Orchestrator

  /** The component's `useState` hooks. JavaScript `null` is `JNull`;
      `analysisRequest` starts as `null`, which is `None`. The dark-mode
      flag only styles the page and is not modelled. */
  datatype AppState = AppState(
    agents: Json,
    tasks: Json,
    orchestratorStatus: Json,
    newTaskTitle: string,
    newTaskDescription: string,
    newTaskType: string,
    analysisRequest: Option<string>,
    analysisResult: Json)

  const INITIAL: AppState := AppState(JArr([]), JArr([]), JNull, "", "", "", None, JNull)

  /** The three list requests, and the order they are started in when the
      component mounts. */
  datatype Refresh = FetchAgents | FetchTasks | FetchStatus

  const ON_MOUNT: seq<Refresh> := [FetchAgents, FetchTasks, FetchStatus]

  datatype Endpoint = PostTasks | PostExecute(taskId: Json) | PostAnalyze | PostExecutePlan

  /** A request an action sends; `None` is a request without a body. */
  datatype Request = Request(endpoint: Endpoint, body: Option<Json>)

  /** What `fetch` gave: a response with its `ok` flag and decoded body, or
      an exception (a network failure or a body that is not JSON), which
      the action logs and otherwise ignores. */
  datatype Outcome = Replied(ok: bool, body: Json) | Threw

  predicate IsOk(o: Outcome)
  {
    o.Replied? && o.ok
  }

  /** The state after an action, the request it sent, and the refreshes it
      started afterwards. */
  datatype Step = Step(state: AppState, sent: Option<Request>, refreshes: seq<Refresh>)

  /** The state after the three refreshes started on mount have come back,
      in the order they were started, from the initial state. */
  function Mounted(outcomes: seq<Outcome>): (st: AppState)
    requires |outcomes| == |ON_MOUNT|
    ensures st.agents == if outcomes[0].Replied? then outcomes[0].body else JArr([])
    ensures st.tasks == if outcomes[1].Replied? then outcomes[1].body else JArr([])
    ensures st.orchestratorStatus == if outcomes[2].Replied? then outcomes[2].body else JNull
    ensures st.newTaskTitle == "" && st.newTaskType == "" && st.newTaskDescription == "" && st.analysisRequest.None? && st.analysisResult == JNull
  {
    ApplyFetch(ApplyFetch(ApplyFetch(INITIAL, ON_MOUNT[0], outcomes[0]), ON_MOUNT[1], outcomes[1]), ON_MOUNT[2], outcomes[2])
  }

  /** Right after mounting, with the form and the request text still
      empty, neither creating a task nor analysing sends anything. */
  lemma MountedSendsNothing(outcomes: seq<Outcome>, o: Outcome)
    requires |outcomes| == |ON_MOUNT|
    ensures CreateTask(Mounted(outcomes), o) == Step(Mounted(outcomes), None, [])
    ensures AnalyzeRequest(Mounted(outcomes), o) == Step(Mounted(outcomes), None, [])
  {
  }

  /** A refresh stores the decoded body whatever the response status; an
      exception leaves the state alone. */
  function ApplyFetch(st: AppState, which: Refresh, o: Outcome): (st': AppState)
    ensures o.Threw? ==> st' == st
    ensures o.Replied? && which == FetchAgents ==> st' == st.(agents := o.body)
    ensures o.Replied? && which == FetchTasks ==> st' == st.(tasks := o.body)
    ensures o.Replied? && which == FetchStatus ==> st' == st.(orchestratorStatus := o.body)
  {
    if o.Threw? then st
    else match which
      case FetchAgents => st.(agents := o.body)
      case FetchTasks => st.(tasks := o.body)
      case FetchStatus => st.(orchestratorStatus := o.body)
  }

  /** The body `createTask` posts: the form fields, with priority 2. */
  function CreateTaskBody(st: AppState): Json
  {
    JObj(map["title" := JStr(st.newTaskTitle), "description" := JStr(st.newTaskDescription),
             "task_type" := JStr(st.newTaskType), "priority" := JNum(2)])
  }

  /** `createTask`: nothing is sent unless a title and a type are filled in.
      An ok answer clears the form and refreshes tasks, then agents; any
      other answer or an exception leaves everything as it was. */
  function CreateTask(st: AppState, o: Outcome): (r: Step)
    ensures r.sent.None? <==> st.newTaskTitle == "" || st.newTaskType == ""
    ensures r.sent.Some? ==> r.sent.value == Request(PostTasks, Some(CreateTaskBody(st)))
    ensures r.sent.Some? && IsOk(o) ==>
      && r.state == st.(newTaskTitle := "", newTaskDescription := "", newTaskType := "")
      && r.refreshes == [FetchTasks, FetchAgents]
    ensures r.sent.None? || !IsOk(o) ==> r.state == st && r.refreshes == []
  {
    if st.newTaskTitle == "" || st.newTaskType == "" then Step(st, None, [])
    else
      var req := Request(PostTasks, Some(CreateTaskBody(st)));
      if IsOk(o) then
        Step(st.(newTaskTitle := "", newTaskDescription := "", newTaskType := ""), Some(req), [FetchTasks, FetchAgents])
      else Step(st, Some(req), [])
  }

  /** A second click right after a successful creation sends nothing, since
      the form was cleared. */
  lemma CreateTwiceSendsOnce(st: AppState, o1: Outcome, o2: Outcome)
    requires IsOk(o1)
    ensures CreateTask(CreateTask(st, o1).state, o2).sent.None?
    ensures CreateTask(CreateTask(st, o1).state, o2).state == CreateTask(st, o1).state
  {
  }

  /** What the client sends for a new task is always accepted by the
      server, which stores a `pending` task with the form's title,
      description and type and priority 2. */
  lemma CreateTaskAccepted(st: AppState, o: Outcome, s: Store, now: nat)
    requires Valid(s)
    requires CreateTask(st, o).sent.Some?
    ensures var req := CreateTask(st, o).sent.value;
      var r := TasksApi.CreateTask(s, TasksApi.DecodeNewTask(req.body.value), now);
      && r.response.Ok?
      && r.response.body.title == st.newTaskTitle
      && r.response.body.description == st.newTaskDescription
      && r.response.body.taskType == st.newTaskType
      && r.response.body.priority == 2
      && r.response.body.status == PENDING
  {
    var body := CreateTaskBody(st);
    assert !Falsy(body) by {
      assert "title" in body.fields;
    }
  }

  /** `executeTask`: the request has no body and the state never changes;
      only an ok answer refreshes tasks, then agents. */
  function ExecuteTask(st: AppState, taskId: Json, o: Outcome): (r: Step)
    ensures r.state == st
    ensures r.sent == Some(Request(PostExecute(taskId), None))
    ensures IsOk(o) <==> r.refreshes == [FetchTasks, FetchAgents]
    ensures !IsOk(o) <==> r.refreshes == []
  {
    Step(st, Some(Request(PostExecute(taskId), None)), if IsOk(o) then [FetchTasks, FetchAgents] else [])
  }

  /** The task list offers the execute button only on a `pending` task. */
  predicate ExecuteOffered(task: Json)
  {
    Field(task, "status") == Some(JStr(PENDING))
  }

  /** The button is offered on exactly the tasks the server will execute:
      for a stored task, it is shown if and only if the execute request
      succeeds. */
  lemma ExecuteOfferedIffRuns(s: Store, id: nat, now: nat)
    requires Valid(s) && id in s.tasks
    ensures ExecuteOffered(TaskDict(s.tasks[id])) <==> TasksApi.ExecuteTask(s, id, now).response.Ok?
  {
  }

  /** `analysisRequest` is falsy: still `null`, or empty. */
  predicate NoRequestText(st: AppState)
  {
    st.analysisRequest.None? || st.analysisRequest.value == ""
  }

  /** `analyzeRequest`: nothing is sent while the request text is falsy.
      Otherwise the decoded answer replaces the analysis whether or not the
      response was ok; an exception leaves it as it was. */
  function AnalyzeRequest(st: AppState, o: Outcome): (r: Step)
    ensures r.sent.None? <==> NoRequestText(st)
    ensures r.sent.Some? ==>
      r.sent.value == Request(PostAnalyze, Some(JObj(map["request" := JStr(st.analysisRequest.value)])))
    ensures r.sent.Some? && o.Replied? ==> r.state == st.(analysisResult := o.body)
    ensures r.sent.None? || o.Threw? ==> r.state == st
    ensures r.refreshes == []
  {
    if NoRequestText(st) then Step(st, None, [])
    else
      var req := Request(PostAnalyze, Some(JObj(map["request" := JStr(st.analysisRequest.value)])));
      if o.Replied? then Step(st.(analysisResult := o.body), Some(req), [])
      else Step(st, Some(req), [])
  }

  /** What `analyzeRequest` sends is always accepted: the server echoes the
      text as typed and proposes at least one task. */
  lemma AnalyzeAccepted(st: AppState, o: Outcome)
    requires !NoRequestText(st)
    ensures var req := AnalyzeRequest(st, o).sent.value;
      var reply := Orchestrator.Analyze(Orchestrator.DecodeAnalyze(req.body.value));
      && reply.Ok?
      && reply.body.originalRequest == st.analysisRequest.value
      && 1 <= |reply.body.suggestedTasks| <= 6
  {
    var body := JObj(map["request" := JStr(st.analysisRequest.value)]);
    assert !Falsy(body) by {
      assert "request" in body.fields;
    }
  }

  /** The body `executePlan` posts: the shown analysis's `suggested_tasks`
      under `tasks`. `JSON.stringify` drops an `undefined` member, so with
      no suggestions the body is `{}`. */
  function PlanBody(st: AppState): (j: Json)
    ensures j.JObj? && j.fields.Keys <= {"tasks"}
    ensures "tasks" in j.fields <==> Field(st.analysisResult, "suggested_tasks").Some?
    ensures "tasks" in j.fields ==> j.fields["tasks"] == st.analysisResult.fields["suggested_tasks"]
  {
    var suggested := Field(st.analysisResult, "suggested_tasks");
    if suggested.Some? then JObj(map["tasks" := suggested.value]) else JObj(map[])
  }

  /** `executePlan`, run from the button under the shown analysis. An ok
      answer hides the analysis, empties the request text and refreshes
      tasks, then agents; otherwise nothing changes. */
  function ExecutePlan(st: AppState, o: Outcome): (r: Step)
    ensures r.sent == Some(Request(PostExecutePlan, Some(PlanBody(st))))
    ensures IsOk(o) ==>
      && r.state == st.(analysisResult := JNull, analysisRequest := Some(""))
      && r.refreshes == [FetchTasks, FetchAgents]
    ensures !IsOk(o) ==> r.state == st && r.refreshes == []
  {
    var req := Request(PostExecutePlan, Some(PlanBody(st)));
    if IsOk(o) then Step(st.(analysisResult := JNull, analysisRequest := Some("")), Some(req), [FetchTasks, FetchAgents])
    else Step(st, Some(req), [])
  }

  /** An analysis without `suggested_tasks`, such as the error body of a
      refused analysis, is sent back as `{}`, which the server refuses with
      400 and no change. */
  lemma PlanWithoutSuggestionsRefused(st: AppState, o: Outcome, s: Store, now: nat)
    requires Valid(s)
    requires Field(st.analysisResult, "suggested_tasks").None?
    ensures var req := ExecutePlan(st, o).sent.value;
      Orchestrator.ExecutePlan(s, Orchestrator.DecodePlan(req.body.value), now)
        == Reply(s, Fail(HTTP_BAD_REQUEST, "Tasks list is required"))
  {
  }

  /** After a successful plan, analysing again does nothing until new text
      is typed. */
  lemma AnalyzeIdleAfterPlan(st: AppState, o1: Outcome, o2: Outcome)
    requires IsOk(o1)
    ensures var st' := ExecutePlan(st, o1).state;
      AnalyzeRequest(st', o2) == Step(st', None, [])
  {
  }

  /** The plan the client sends back, for an analysis the server produced,
      is read by the server as exactly the proposed tasks; the server then
      creates one `pending` task per proposal, with its type, title and
      priority. */
  lemma PlanEndToEnd(st: AppState, a: Orchestrator.Analysis, s: Store, o: Outcome, now: nat)
    requires Valid(s)
    requires st.analysisResult == Orchestrator.AnalysisJson(a)
    ensures var req := ExecutePlan(st, o).sent.value;
      && Orchestrator.DecodePlan(req.body.value) == Some(Orchestrator.PlanOf(a.suggestedTasks))
      && var r := Orchestrator.ExecutePlan(s, Orchestrator.DecodePlan(req.body.value), now);
      && r.response.Ok?
      && r.response.body.totalTasks == |a.suggestedTasks|
      && forall i :: 0 <= i < |a.suggestedTasks| ==>
           && r.response.body.tasks[i].taskType == a.suggestedTasks[i].taskType
           && r.response.body.tasks[i].title == a.suggestedTasks[i].title
           && r.response.body.tasks[i].priority == a.suggestedTasks[i].priority
           && r.response.body.tasks[i].status == PENDING
  {
    var xs := Orchestrator.AnalysisJson(a).fields["suggested_tasks"].items;
    var body := PlanBody(st);
    assert body == JObj(map["tasks" := JArr(xs)]);
    assert !Falsy(body) by {
      assert "tasks" in body.fields;
    }
    var items := Orchestrator.DecodePlan(body).value;
    forall i | 0 <= i < |a.suggestedTasks|
      ensures items[i] == Orchestrator.ItemOf(a.suggestedTasks[i])
    {
      Orchestrator.SuggestionRoundTrip(a.suggestedTasks[i]);
    }
    assert items == Orchestrator.PlanOf(a.suggestedTasks);
    Orchestrator.ExecuteSuggestions(s, a.suggestedTasks, now);
  }

  /** The task type labels the client shows. */
  const TASK_TYPE_LABELS: map<string, string> := map[
    "text" := "Tekstgenerering",
    "visual" := "Visuelt innhold",
    "code" := "Koding & integrasjon",
    "workflow" := "Workflow",
    "customer_service" := "Kundeservice",
    "sales" := "Salg & markedsføring"]

  /** The label for a task type: its entry in the table, or the type itself
      when the table has none (as an own property). */
  function TaskTypeLabel(taskType: string): (r: string)
    ensures taskType in TASK_TYPE_LABELS ==> r == TASK_TYPE_LABELS[taskType]
    ensures taskType !in TASK_TYPE_LABELS ==> r == taskType
  {
    if taskType in TASK_TYPE_LABELS then TASK_TYPE_LABELS[taskType] else taskType
  }

  /** The label table covers exactly the six types the server lists at
      `GET /agents/types`, with six distinct non-empty labels, so `||`
      never falls through for a known type. */
  lemma LabelsCoverAgentTypes()
    ensures TASK_TYPE_LABELS.Keys == set i | 0 <= i < |AgentsApi.TYPE_VALUES| :: AgentsApi.TYPE_VALUES[i]
    ensures forall t :: t in TASK_TYPE_LABELS ==> TASK_TYPE_LABELS[t] != ""
    ensures forall t, u :: t in TASK_TYPE_LABELS && u in TASK_TYPE_LABELS && t != u ==>
      TASK_TYPE_LABELS[t] != TASK_TYPE_LABELS[u]
  {
    var vs := AgentsApi.TYPE_VALUES;
    assert vs[0] == "text" && vs[1] == "visual" && vs[2] == "code";
    assert vs[3] == "workflow" && vs[4] == "customer_service" && vs[5] == "sales";
  }

  /** A JavaScript value as the label helper can return it: a string,
      `undefined`, or a member inherited from `Object.prototype` (a
      function or an object, never a string). */
  datatype JsValue = JsString(s: string) | Undefined | Inherited(name: string)

  /** The names every plain JavaScript object inherits. */
  const OBJECT_PROTOTYPE_MEMBERS: set<string> := {
    "constructor", "hasOwnProperty", "isPrototypeOf", "propertyIsEnumerable",
    "toLocaleString", "toString", "valueOf", "__proto__",
    "__defineGetter__", "__defineSetter__", "__lookupGetter__", "__lookupSetter__"}

  /** `getTaskTypeLabel` as written: `types[type] || type` on an object
      literal, applied to a string or to `undefined` (`None`), whose
      property key is `"undefined"`. */
  function TaskTypeLabelAsWritten(taskType: Option<string>): (r: JsValue)
    ensures taskType.Some? && taskType.value !in OBJECT_PROTOTYPE_MEMBERS ==>
      r == JsString(TaskTypeLabel(taskType.value))
    ensures taskType.Some? && taskType.value in OBJECT_PROTOTYPE_MEMBERS ==> r.Inherited?
    ensures taskType.None? ==> r == Undefined
  {
    var key := if taskType.Some? then taskType.value else "undefined";
    if key in TASK_TYPE_LABELS then JsString(TASK_TYPE_LABELS[key])
    else if key in OBJECT_PROTOTYPE_MEMBERS then Inherited(key)
    else if taskType.Some? then JsString(taskType.value)
    else Undefined
  }

  /** A task whose type is `constructor`, which the server accepts, is
      labelled with `Object`'s constructor function instead of a string. */
  lemma PrototypeTypeLeaks()
    ensures TaskTypeLabelAsWritten(Some("constructor")) == Inherited("constructor")
    ensures TaskTypeLabel("constructor") == "constructor"
  {
  }

  /** The badge under a proposed task, as written: it labels the proposal's
      `task_type` member. */
  function SuggestionBadgeAsWritten(suggestion: Json): (r: JsValue)
    ensures StrAt(suggestion, "task_type").None? ==> r == Undefined
    ensures StrAt(suggestion, "task_type").Some? && StrAt(suggestion, "task_type").value !in OBJECT_PROTOTYPE_MEMBERS ==>
      r == JsString(TaskTypeLabel(StrAt(suggestion, "task_type").value))
  {
    TaskTypeLabelAsWritten(StrAt(suggestion, "task_type"))
  }

  /** The server sends a proposal's type under `type`, so the badge as
      written is blank for every proposal. */
  lemma SuggestionBadgeBlank(g: Orchestrator.Suggestion)
    ensures SuggestionBadgeAsWritten(Orchestrator.SuggestionJson(g)) == Undefined
  {
  }

  /** The badge under a proposed task, reading the member the server
      sends. */
  function SuggestionBadge(suggestion: Json): (r: string)
    ensures StrAt(suggestion, "type").Some? && StrAt(suggestion, "type").value in TASK_TYPE_LABELS ==>
      r == TASK_TYPE_LABELS[StrAt(suggestion, "type").value]
    ensures StrAt(suggestion, "type").Some? && StrAt(suggestion, "type").value !in TASK_TYPE_LABELS ==>
      r == StrAt(suggestion, "type").value
    ensures StrAt(suggestion, "type").None? ==> r == ""
  {
    var t := StrAt(suggestion, "type");
    if t.Some? then TaskTypeLabel(t.value) else ""
  }

  /** With the member the server sends, every proposal the planner makes
      shows the label of its type. */
  lemma SuggestionBadgeLabels(text: string)
    ensures forall g :: g in Orchestrator.SuggestTasks(text) ==>
      && g.taskType in TASK_TYPE_LABELS
      && SuggestionBadge(Orchestrator.SuggestionJson(g)) == TASK_TYPE_LABELS[g.taskType]
  {
    var r := Orchestrator.SuggestTasks(text);
    forall g | g in r
      ensures g.taskType in TASK_TYPE_LABELS
      ensures SuggestionBadge(Orchestrator.SuggestionJson(g)) == TASK_TYPE_LABELS[g.taskType]
    {
      var i :| 0 <= i < |r| && r[i] == g;
      RankedTypeLabelled(g.taskType);
      BadgeOfLabelled(g);
    }
  }

  /** A proposal of a labelled type shows that label. */
  lemma BadgeOfLabelled(g: Orchestrator.Suggestion)
    requires g.taskType in TASK_TYPE_LABELS
    ensures SuggestionBadge(Orchestrator.SuggestionJson(g)) == TASK_TYPE_LABELS[g.taskType]
  {
    assert StrAt(Orchestrator.SuggestionJson(g), "type") == Some(g.taskType);
  }

  /** Every type the planner knows has a label. */
  lemma RankedTypeLabelled(t: string)
    requires Orchestrator.Rank(t) < 6
    ensures t in TASK_TYPE_LABELS
  {
  }

  /** `item.status === status`. */
  predicate HasStatus(item: Json, status: string)
  {
    Field(item, "status") == Some(JStr(status))
  }

  /** `items.filter(x => x.status === status).length`. */
  function CountStatus(items: seq<Json>, status: string): (n: nat)
    ensures n <= |items|
    ensures n == 0 <==> forall i :: 0 <= i < |items| ==> !HasStatus(items[i], status)
    ensures n == |items| <==> forall i :: 0 <= i < |items| ==> HasStatus(items[i], status)
  {
    if |items| == 0 then 0
    else
      var rest := CountStatus(items[1..], status);
      assert forall i :: 1 <= i < |items| ==> items[i] == items[1..][i - 1];
      (if HasStatus(items[0], status) then 1 else 0) + rest
  }

  /** The four task figures of the dashboard never add up to more than the
      number of tasks: no task is counted under two statuses. */
  lemma {:induction false} TaskFiguresFit(items: seq<Json>)
    ensures CountStatus(items, PENDING) + CountStatus(items, IN_PROGRESS)
            + CountStatus(items, COMPLETED) + CountStatus(items, FAILED) <= |items|
  {
    if |items| > 0 {
      TaskFiguresFit(items[1..]);
    }
  }

  /** The dashboard's figures and its recent-activity list. */
  datatype Dashboard = Dashboard(
    agentCount: nat,
    idleAgents: nat,
    inProgress: nat,
    pending: nat,
    completed: nat,
    failed: nat,
    recent: seq<Json>)

  /** The dashboard, when the stored lists are arrays (otherwise the render
      throws). Recent activity is the first five tasks in the order the
      server listed them. */
  function DashboardOf(st: AppState): (r: Option<Dashboard>)
    ensures r.Some? <==> st.agents.JArr? && st.tasks.JArr?
    ensures r.Some? ==>
      var d := r.value;
      && d.agentCount == |st.agents.items|
      && d.idleAgents == CountStatus(st.agents.items, IDLE)
      && d.pending == CountStatus(st.tasks.items, PENDING)
      && d.inProgress == CountStatus(st.tasks.items, IN_PROGRESS)
      && d.completed == CountStatus(st.tasks.items, COMPLETED)
      && d.failed == CountStatus(st.tasks.items, FAILED)
      && d.idleAgents <= d.agentCount
      && d.pending + d.inProgress + d.completed + d.failed <= |st.tasks.items|
      && |d.recent| == (if |st.tasks.items| < 5 then |st.tasks.items| else 5)
      && d.recent == st.tasks.items[..|d.recent|]
  {
    if !st.agents.JArr? || !st.tasks.JArr? then None
    else
      var ts := st.tasks.items;
      TaskFiguresFit(ts);
      Some(Dashboard(
        |st.agents.items|,
        CountStatus(st.agents.items, IDLE),
        CountStatus(ts, IN_PROGRESS),
        CountStatus(ts, PENDING),
        CountStatus(ts, COMPLETED),
        CountStatus(ts, FAILED),
        ts[..if |ts| < 5 then |ts| else 5]))
  }

  /** The agent list as `GET /agents` sends it. */
  function AgentList(s: Store): (j: Json)
    requires Valid(s)
    ensures j.JArr? && |j.items| == |s.agents| == |AgentsApi.GetAgents(s)|
    ensures forall i :: 0 <= i < |j.items| ==> j.items[i] == AgentDict(AgentsApi.GetAgents(s)[i])
  {
    JArr(Dicts(AgentsApi.GetAgents(s)))
  }

  /** The dictionaries of a list of agents, in list order. */
  function Dicts(r: seq<Agent>): (items: seq<Json>)
    ensures |items| == |r|
    ensures forall i :: 0 <= i < |r| ==> items[i] == AgentDict(r[i])
  {
    if r == [] then [] else [AgentDict(r[0])] + Dicts(r[1..])
  }

  /** After agents are refreshed from the server, the dashboard shows the
      number of stored agents and the same idle count as the server's own
      statistics. */
  lemma DashboardMatchesServer(st: AppState, s: Store)
    requires Valid(s) && st.tasks.JArr?
    ensures var d := DashboardOf(ApplyFetch(st, FetchAgents, Replied(true, AgentList(s)))).value;
      && d.agentCount == |s.agents|
      && d.idleAgents == |Orchestrator.AgentsWith(s, IDLE)|
  {
    ListedStatuses(AgentsApi.GetAgents(s), IDLE);
    StatusCount(AgentsApi.GetAgents(s), AgentList(s).items, IDLE);
    ListedIds(s, IDLE);
  }

  /** An agent's dictionary carries the agent's status. */
  lemma ListedStatuses(r: seq<Agent>, status: string)
    ensures forall i :: 0 <= i < |r| ==> (HasStatus(Dicts(r)[i], status) <==> r[i].status == status)
  {
    forall i | 0 <= i < |r| ensures HasStatus(Dicts(r)[i], status) <==> r[i].status == status {
      DictStatus(r[i], status);
    }
  }

  /** The agents `GET /agents` lists with a status are the stored agents
      with that status. */
  lemma ListedIds(s: Store, status: string)
    requires Valid(s)
    ensures StatusIds(AgentsApi.GetAgents(s), status) == Orchestrator.AgentsWith(s, status)
  {
    var r := AgentsApi.GetAgents(s);
    forall k | k in Orchestrator.AgentsWith(s, status) ensures k in StatusIds(r, status) {
      var i :| 0 <= i < |r| && r[i].id == k;
    }
  }

  /** The ids of the agents of a list that have a given status. */
  function StatusIds(r: seq<Agent>, status: string): (ks: set<nat>)
    ensures forall i :: 0 <= i < |r| && r[i].status == status ==> r[i].id in ks
    ensures forall k :: k in ks ==> exists i :: 0 <= i < |r| && r[i].id == k && r[i].status == status
  {
    if |r| == 0 then {}
    else
      var rest := StatusIds(r[1..], status);
      assert forall i :: 1 <= i < |r| ==> r[i] == r[1..][i - 1];
      forall k | k in rest ensures exists i :: 0 <= i < |r| && r[i].id == k && r[i].status == status {
        var i :| 0 <= i < |r[1..]| && r[1..][i].id == k && r[1..][i].status == status;
        assert r[i + 1] == r[1..][i];
      }
      (if r[0].status == status then {r[0].id} else {}) + rest
  }

  /** Counting the entries of a list of agent dictionaries with a status
      counts the distinct agents with that status. */
  lemma {:induction false} StatusCount(r: seq<Agent>, dicts: seq<Json>, status: string)
    requires |dicts| == |r|
    requires forall i :: 0 <= i < |r| ==> (HasStatus(dicts[i], status) <==> r[i].status == status)
    requires forall i, j :: 0 <= i < j < |r| ==> r[i].id < r[j].id
    ensures CountStatus(dicts, status) == |StatusIds(r, status)|
  {
    if |r| > 0 {
      StatusCount(r[1..], dicts[1..], status);
      assert r[0].id !in StatusIds(r[1..], status);
    }
  }

  /** An agent's dictionary carries its status. */
  lemma DictStatus(a: Agent, status: string)
    ensures HasStatus(AgentDict(a), status) <==> a.status == status
  {
    var d := AgentDict(a);
    assert "status" in d.fields;
  }

  datatype Icon = CheckCircle | Clock | AlertCircle

  /** `getStatusIcon`: the icon and colour shown beside a task status. */
  function StatusIcon(status: string): (r: (Icon, string))
    ensures status == COMPLETED ==> r == (CheckCircle, "text-green-500")
    ensures status == IN_PROGRESS ==> r == (Clock, "text-blue-500")
    ensures status == FAILED ==> r == (AlertCircle, "text-red-500")
    ensures status !in {COMPLETED, IN_PROGRESS, FAILED} ==> r == (Clock, "text-gray-500")
  {
    if status == COMPLETED then (CheckCircle, "text-green-500")
    else if status == IN_PROGRESS then (Clock, "text-blue-500")
    else if status == FAILED then (AlertCircle, "text-red-500")
    else (Clock, "text-gray-500")
  }

  /** `getAgentStatusColor`: the badge colour for an agent status. */
  function AgentStatusColor(status: string): (r: string)
    ensures status == IDLE ==> r == "bg-green-500 text-white"
    ensures status == BUSY ==> r == "bg-blue-500 text-white"
    ensures status == ERROR ==> r == "bg-red-500 text-white"
    ensures status !in {IDLE, BUSY, ERROR} ==> r == "bg-gray-500 text-white"
  {
    if status == IDLE then "bg-green-500 text-white"
    else if status == BUSY then "bg-blue-500 text-white"
    else if status == ERROR then "bg-red-500 text-white"
    else "bg-gray-500 text-white"
  }

  /** The statuses the server gives tasks are told apart by the icon,
      except that `pending` shows the same grey clock as an unknown status;
      the statuses it gives agents get three distinct colours, none of them
      the grey of an unknown status. */
  lemma StatusesDistinguished(unknown: string)
    requires unknown !in {PENDING, IN_PROGRESS, COMPLETED, FAILED, IDLE, BUSY, ERROR}
    ensures StatusIcon(PENDING) == StatusIcon(unknown)
    ensures StatusIcon(IN_PROGRESS) != StatusIcon(PENDING)
    ensures StatusIcon(COMPLETED) != StatusIcon(PENDING) && StatusIcon(FAILED) != StatusIcon(PENDING)
    ensures StatusIcon(COMPLETED) != StatusIcon(IN_PROGRESS) && StatusIcon(FAILED) != StatusIcon(IN_PROGRESS)
    ensures StatusIcon(COMPLETED) != StatusIcon(FAILED)
    ensures |{AgentStatusColor(IDLE), AgentStatusColor(BUSY), AgentStatusColor(ERROR), AgentStatusColor(unknown)}| == 4
  {
  }

  /** The colour of the status badge in the task list. */
  function TaskBadgeColor(status: string): (r: string)
    ensures status == COMPLETED ==> r == "bg-green-500 text-white"
    ensures status == FAILED ==> r == "bg-red-500 text-white"
    ensures status != COMPLETED && status != FAILED ==> r == "bg-blue-500 text-white"
  {
    if status == COMPLETED then "bg-green-500 text-white"
    else if status == FAILED then "bg-red-500 text-white"
    else "bg-blue-500 text-white"
  }
}

=== FILE: common.dfy ===
/** Shared vocabulary: optional values, decoded JSON values, and the two
    string operations the server relies on (Python's substring test `in`
    and `str.lower`). */
module Common {

  datatype Option<+T> = None | Some(value: T)

  /** A Python call that either returns a value or raises an exception
      whose message is kept. */
  datatype Attempt<+T> = Done(value: T) | Raised(message: string)

  /** A decoded JSON value, as Python's `json.loads` and JavaScript's
      `response.json()` produce it. Numbers are integers only.
      `JSimulated` stands for the literal payload that the simulated
      execution of a task returns: the payload is determined by the task
      type and, for text tasks, by the prompt, and its literal contents
      are not modelled. */
  datatype Json =
    | JNull
    | JBool(b: bool)
    | JNum(n: int)
    | JStr(s: string)
    | JArr(items: seq<Json>)
    | JObj(fields: map<string, Json>)
    | JSimulated(taskType: string, prompt: Json)

  /** JavaScript property access `j.key`: `None` is `undefined`. */
  function Field(j: Json, key: string): Option<Json>
  {
    if j.JObj? && key in j.fields then Some(j.fields[key]) else None
  }

  /** `data['key']` of a request body, when present and a string. */
  function StrAt(j: Json, key: string): Option<string>
  {
    if j.JObj? && key in j.fields && j.fields[key].JStr? then Some(j.fields[key].s) else None
  }

  /** `data['key']` of a request body, when present and a number. */
  function IntAt(j: Json, key: string): Option<int>
  {
    if j.JObj? && key in j.fields && j.fields[key].JNum? then Some(j.fields[key].n) else None
  }

  /** Python's `not data` for a decoded body: `None`, `False`, zero, or an
      empty string, list or object. */
  predicate Falsy(j: Json)
  {
    match j
    case JNull => true
    case JBool(b) => !b
    case JNum(n) => n == 0
    case JStr(text) => text == ""
    case JArr(items) => items == []
    case JObj(fields) => fields == map[]
    case JSimulated(_, _) => false
  }

  function OptStr(v: Option<string>): Json
  {
    if v.Some? then JStr(v.value) else JNull
  }

  function OptNum(v: Option<nat>): Json
  {
    if v.Some? then JNum(v.value) else JNull
  }

  /** `needle` occurs in `hay` starting at index `i`. */
  ghost predicate OccursAt(hay: string, needle: string, i: int)
  {
    0 <= i && i + |needle| <= |hay| && hay[i..i + |needle|] == needle
  }

  /** Python's `needle in hay` on strings. */
  predicate Contains(hay: string, needle: string)
    decreases |hay|
  {
    needle <= hay || (|hay| > 0 && Contains(hay[1..], needle))
  }

  /** `Contains` is exactly substring occurrence at some index. */
  lemma ContainsIff(hay: string, needle: string)
    ensures Contains(hay, needle) <==> exists i :: OccursAt(hay, needle, i)
  {
    if Contains(hay, needle) {
      ContainsOccurs(hay, needle);
    }
    forall i | OccursAt(hay, needle, i) ensures Contains(hay, needle) {
      OccursContains(hay, needle, i);
    }
  }

  /** A substring found by `Contains` occurs at some index. */
  lemma {:induction false} ContainsOccurs(hay: string, needle: string)
    requires Contains(hay, needle)
    ensures exists i :: OccursAt(hay, needle, i)
    decreases |hay|
  {
    if needle <= hay {
      assert OccursAt(hay, needle, 0);
    } else {
      ContainsOccurs(hay[1..], needle);
      var j :| OccursAt(hay[1..], needle, j);
      assert hay[1..][j..j + |needle|] == hay[j + 1..j + 1 + |needle|];
      assert OccursAt(hay, needle, j + 1);
    }
  }

  /** A substring occurring at some index is found by `Contains`. */
  lemma {:induction false} OccursContains(hay: string, needle: string, i: int)
    requires OccursAt(hay, needle, i)
    ensures Contains(hay, needle)
    decreases i
  {
    if i == 0 {
      assert needle <= hay;
    } else {
      assert hay[1..][i - 1..i - 1 + |needle|] == hay[i..i + |needle|];
      OccursContains(hay[1..], needle, i - 1);
    }
  }

  /** Python's `any(word in hay for word in words)`. */
  predicate ContainsAny(hay: string, words: seq<string>)
  {
    exists k :: 0 <= k < |words| && Contains(hay, words[k])
  }

  function LowerChar(c: char): char
  {
    if 'A' <= c <= 'Z' then (c as int + 32) as char else c
  }

  /** `str.lower` restricted to the ASCII letters. */
  function Lower(s: string): (r: string)
    ensures |r| == |s|
    ensures forall i :: 0 <= i < |s| ==> r[i] == LowerChar(s[i])
  {
    seq(|s|, i requires 0 <= i < |s| => LowerChar(s[i]))
  }
}

=== FILE: orchestrator.dfy ===
/** The orchestrator endpoints: the keyword planner behind
    `POST /orchestrator/analyze`, plan execution, the status summary and
    the agent recommendation. */
module Orchestrator {
  import opened Common
  import opened TaskRecord
  import opened AgentRecord
  import opened Store
  import opened Sorting

  /** A task the planner proposes. */
  datatype Suggestion = Suggestion(taskType: string, title: string, description: string, priority: int)

  /** One rule of the planner: a task type, the keywords that trigger it and
      the task it proposes. */
  datatype Category = Category(taskType: string, keywords: seq<string>, proposal: Suggestion)

  /** The planner's rules, in the order it checks them. */
  const CATEGORIES: seq<Category> := [
    Category("text", ["tekst", "innhold", "skrive", "artikkel", "e-post"],
      Suggestion("text", "Generer tekstinnhold", "Lag tekstbasert innhold basert på forespørselen", 2)),
    Category("visual", ["bilde", "video", "visuell", "design", "logo"],
      Suggestion("visual", "Lag visuelt innhold", "Generer bilder eller videoer for kampanjen", 2)),
    Category("code", ["kode", "automatisering", "integrasjon", "api"],
      Suggestion("code", "Utvikle kodeløsning", "Implementer teknisk løsning eller integrasjon", 1)),
    Category("workflow", ["workflow", "prosess", "automatiser", "n8n"],
      Suggestion("workflow", "Sett opp workflow", "Konfigurer automatiserte arbeidsflyter", 1)),
    Category("customer_service", ["kunde", "service", "support", "henvendelse"],
      Suggestion("customer_service", "Kundeservice oppsett", "Konfigurer AI-drevet kundeservice", 3)),
    Category("sales", ["salg", "leads", "markedsføring", "outreach"],
      Suggestion("sales", "Salg og markedsføring", "Implementer salgs- og markedsføringsaktiviteter", 3))
  ]

  /** The task proposed when no keyword matches. */
  const FALLBACK: Suggestion :=
    Suggestion("text", "Analyser forespørsel", "Analyser og planlegg tilnærming til forespørselen", 1)

  const STRATEGY: string := "Sequential execution with shared context"

  /** Rule `k` of `rules` fires on the (lowered) request text: one of its
      keywords occurs in it. */
  predicate Fires(rules: seq<Category>, text: string, k: nat)
    requires k < |rules|
  {
    ContainsAny(text, rules[k].keywords)
  }

  /** The indices from `from` on of the rules that fire, ascending. */
  function Fired(rules: seq<Category>, text: string, from: nat): (ks: seq<nat>)
    requires from <= |rules|
    decreases |rules| - from
    ensures |ks| <= |rules| - from
    ensures forall i :: 0 <= i < |ks| ==> from <= ks[i] < |rules| && Fires(rules, text, ks[i])
    ensures forall i, j :: 0 <= i < j < |ks| ==> ks[i] < ks[j]
    ensures forall k :: from <= k < |rules| && Fires(rules, text, k) ==> k in ks
  {
    if from == |rules| then []
    else if Fires(rules, text, from) then [from] + Fired(rules, text, from + 1)
    else Fired(rules, text, from + 1)
  }

  /** The position of a task type in the planner's rule order; 6 for any
      other type. */
  function Rank(taskType: string): (n: nat)
    ensures n <= 6
    ensures n < 6 ==> TYPE_ORDER[n] == taskType
    ensures forall i :: 0 <= i < 6 && TYPE_ORDER[i] == taskType ==> n == i
  {
    Position(taskType, TYPE_ORDER)
  }

  /** The six task types in rule order. */
  const TYPE_ORDER: seq<string> := ["text", "visual", "code", "workflow", "customer_service", "sales"]

  /** The first position of `t` in `ts`, or `|ts|` when it does not occur. */
  function Position(t: string, ts: seq<string>): (n: nat)
    ensures n <= |ts|
    ensures n < |ts| ==> ts[n] == t
    ensures forall i :: 0 <= i < n ==> ts[i] != t
  {
    if ts == [] then 0
    else if ts[0] == t then 0
    else 1 + Position(t, ts[1..])
  }

  /** The six rules are listed in rank order, and each proposes a task of
      its own type. */
  lemma RuleTable()
    ensures |CATEGORIES| == 6
    ensures RankOrdered(CATEGORIES) && Rank(FALLBACK.taskType) == 0
  {
    forall k | 0 <= k < |CATEGORIES| ensures Rank(CATEGORIES[k].proposal.taskType) == k {
      assert CATEGORIES[k].proposal.taskType == TYPE_ORDER[k];
      PositionOfDistinct(TYPE_ORDER, k);
    }
  }

  /** In a list without repeats, each entry's first position is its own. */
  lemma PositionOfDistinct(ts: seq<string>, k: nat)
    requires k < |ts|
    requires forall i, j :: 0 <= i < j < |ts| ==> ts[i] != ts[j]
    ensures Position(ts[k], ts) == k
  {
  }

  /** The fixed priority of each rule's proposal: text and visual 2, code and
      workflow 1, customer service and sales 3; the fallback's is 1. */
  lemma RulePriorities()
    ensures CATEGORIES[0].proposal.priority == 2 && CATEGORIES[1].proposal.priority == 2
    ensures CATEGORIES[2].proposal.priority == 1 && CATEGORIES[3].proposal.priority == 1
    ensures CATEGORIES[4].proposal.priority == 3 && CATEGORIES[5].proposal.priority == 3
    ensures FALLBACK.priority == 1 && FALLBACK.taskType == "text"
  {
  }

  /** Each rule proposes a task of the type ranked at the rule's
      position. */
  ghost predicate RankOrdered(rules: seq<Category>)
  {
    forall k :: 0 <= k < |rules| ==> Rank(rules[k].proposal.taskType) == k
  }

  /** Keyword planning over any list of rules: the proposal of every
      rule that fires, in rule order, or the fallback alone when none
      fires. */
  function Plan(rules: seq<Category>, fallback: Suggestion, text: string): (r: seq<Suggestion>)
    ensures Fired(rules, text, 0) == [] ==> r == [fallback]
    ensures Fired(rules, text, 0) != [] ==> |r| == |Fired(rules, text, 0)|
    ensures Fired(rules, text, 0) != [] ==> forall i :: 0 <= i < |r| ==>
      r[i] == rules[Fired(rules, text, 0)[i]].proposal
  {
    var ks := Fired(rules, text, 0);
    if ks == [] then [fallback]
    else seq(|ks|, i requires 0 <= i < |ks| => rules[ks[i]].proposal)
  }

  /** Over rank-ordered rules, the plan lists each firing rule's proposal
      once, in increasing rank, and only those, unless none fires. */
  lemma {:induction false} PlanRanked(rules: seq<Category>, fallback: Suggestion, text: string)
    requires RankOrdered(rules) && Rank(fallback.taskType) < |rules|
    ensures 1 <= |Plan(rules, fallback, text)| <= |rules|
    ensures var r := Plan(rules, fallback, text);
      forall i :: 0 <= i < |r| ==> Rank(r[i].taskType) < |rules|
    ensures var r := Plan(rules, fallback, text);
      forall k :: 0 <= k < |rules| && Fires(rules, text, k) ==> rules[k].proposal in r
    ensures var r := Plan(rules, fallback, text);
      (exists k :: 0 <= k < |rules| && Fires(rules, text, k)) ==> forall i :: 0 <= i < |r| ==>
        r[i] == rules[Rank(r[i].taskType)].proposal && Fires(rules, text, Rank(r[i].taskType))
    ensures (forall k :: 0 <= k < |rules| ==> !Fires(rules, text, k)) ==> Plan(rules, fallback, text) == [fallback]
    ensures var r := Plan(rules, fallback, text);
      forall i, j :: 0 <= i < j < |r| ==> Rank(r[i].taskType) < Rank(r[j].taskType)
  {
    var r := Plan(rules, fallback, text);
    var ks := Fired(rules, text, 0);
    if ks != [] {
      assert Fires(rules, text, ks[0]);
      assert forall i :: 0 <= i < |ks| ==> Rank(r[i].taskType) == ks[i];
      forall k | 0 <= k < |rules| && Fires(rules, text, k) ensures rules[k].proposal in r {
        var i :| 0 <= i < |ks| && ks[i] == k;
        assert r[i] == rules[k].proposal;
      }
    }
  }

  /** The planner: the proposals of every rule that fires, in rule order,
      or the single fallback task when none fires. */
  function SuggestTasks(text: string): (r: seq<Suggestion>)
    ensures 1 <= |r| <= 6
    ensures forall i :: 0 <= i < |r| ==> Rank(r[i].taskType) < 6
    ensures forall k :: 0 <= k < 6 && Fires(CATEGORIES, text, k) ==> CATEGORIES[k].proposal in r
    ensures (exists k :: 0 <= k < 6 && Fires(CATEGORIES, text, k)) ==> forall i :: 0 <= i < |r| ==>
      r[i] == CATEGORIES[Rank(r[i].taskType)].proposal && Fires(CATEGORIES, text, Rank(r[i].taskType))
    ensures (forall k :: 0 <= k < 6 ==> !Fires(CATEGORIES, text, k)) ==> r == [FALLBACK]
    ensures forall i, j :: 0 <= i < j < |r| ==> Rank(r[i].taskType) < Rank(r[j].taskType)
    ensures forall i, j :: 0 <= i < j < |r| ==> r[i].taskType != r[j].taskType
  {
    RuleTable();
    PlanRanked(CATEGORIES, FALLBACK, text);
    Plan(CATEGORIES, FALLBACK, text)
  }

  /** "automatisering" contains "automatiser", so a request mentioning it
      yields both a code task and a workflow task. */
  lemma AutomatiseringYieldsCodeAndWorkflow(text: string)
    requires Contains(text, "automatisering")
    ensures CATEGORIES[2].proposal in SuggestTasks(text)
    ensures CATEGORIES[3].proposal in SuggestTasks(text)
  {
    AutomatiseringFires(text);
  }

  /** A request mentioning "automatisering" fires both the code rule and,
      through "automatiser", the workflow rule. */
  lemma AutomatiseringFires(text: string)
    requires Contains(text, "automatisering")
    ensures Fires(CATEGORIES, text, 2) && Fires(CATEGORIES, text, 3)
  {
    ContainsIff(text, "automatisering");
    var i :| OccursAt(text, "automatisering", i);
    assert text[i..i + 11] == "automatiser" by {
      assert text[i..i + 11] == text[i..i + 14][..11];
    }
    assert OccursAt(text, "automatiser", i);
    ContainsIff(text, "automatiser");
    var code := CATEGORIES[2].keywords;
    var workflow := CATEGORIES[3].keywords;
    assert code[1] == "automatisering" && Contains(text, code[1]);
    assert workflow[2] == "automatiser" && Contains(text, workflow[2]);
  }

  /** The body of `POST /orchestrator/analyze`. */
  datatype AnalyzeBody = AnalyzeBody(request: Option<string>)

  /** The body of `POST /orchestrator/analyze` as the handler reads it. */
  function DecodeAnalyze(j: Json): (r: Option<AnalyzeBody>)
    ensures r.None? <==> Falsy(j) || !j.JObj?
    ensures r.Some? ==> (r.value.request.Some? <==> "request" in j.fields && j.fields["request"].JStr?)
    ensures r.Some? && r.value.request.Some? ==> j.fields["request"] == JStr(r.value.request.value)
  {
    if Falsy(j) || !j.JObj? then None else Some(AnalyzeBody(StrAt(j, "request")))
  }

  datatype Analysis = Analysis(originalRequest: string, suggestedTasks: seq<Suggestion>, coordinationStrategy: string)

  /** `POST /orchestrator/analyze`. A missing body or `request` key is
      refused and nothing is suggested; otherwise the planner runs on the
      lowered text and the original text is echoed back. */
  function Analyze(body: Option<AnalyzeBody>): (r: Response<Analysis>)
    ensures r.Fail? <==> body.None? || body.value.request.None?
    ensures r.Fail? ==> r == Fail(HTTP_BAD_REQUEST, "Request text is required")
    ensures r.Ok? ==>
      && r.code == HTTP_OK
      && r.body.originalRequest == body.value.request.value
      && r.body.suggestedTasks == SuggestTasks(Lower(body.value.request.value))
      && r.body.coordinationStrategy == STRATEGY
  {
    if body.None? || body.value.request.None? then Fail(HTTP_BAD_REQUEST, "Request text is required")
    else Ok(HTTP_OK, Analysis(body.value.request.value, SuggestTasks(Lower(body.value.request.value)), STRATEGY))
  }

  /** A proposal as the server sends it: the type goes under the key
      `type`. */
  function SuggestionJson(g: Suggestion): (j: Json)
    ensures j.JObj? && j.fields.Keys == {"type", "title", "description", "priority"}
    ensures j.fields["type"] == JStr(g.taskType)
  {
    JObj(map["type" := JStr(g.taskType), "title" := JStr(g.title),
             "description" := JStr(g.description), "priority" := JNum(g.priority)])
  }

  /** The analysis as the server sends it. */
  function AnalysisJson(a: Analysis): (j: Json)
    ensures j.JObj? && j.fields.Keys == {"original_request", "suggested_tasks", "coordination_strategy"}
    ensures j.fields["original_request"] == JStr(a.originalRequest)
    ensures j.fields["coordination_strategy"] == JStr(a.coordinationStrategy)
    ensures j.fields["suggested_tasks"].JArr?
    ensures |j.fields["suggested_tasks"].items| == |a.suggestedTasks|
    ensures forall i :: 0 <= i < |a.suggestedTasks| ==>
      j.fields["suggested_tasks"].items[i] == SuggestionJson(a.suggestedTasks[i])
  {
    JObj(map[
      "original_request" := JStr(a.originalRequest),
      "suggested_tasks" := JArr(seq(|a.suggestedTasks|, i requires 0 <= i < |a.suggestedTasks| => SuggestionJson(a.suggestedTasks[i]))),
      "coordination_strategy" := JStr(a.coordinationStrategy)])
  }

  /** One entry of the `tasks` list of `POST /orchestrator/execute-plan`. */
  datatype PlanItem = PlanItem(title: Option<string>, description: Option<string>,
                               taskType: Option<string>, priority: Option<int>)

  /** `title`, `description` and `type` are read with `task_data[...]`, so
      each must be present. */
  predicate HasRequiredKeys(item: PlanItem)
  {
    item.title.Some? && item.description.Some? && item.taskType.Some?
  }

  /** The plan entry a proposal is sent as. */
  function ItemOf(g: Suggestion): PlanItem
  {
    PlanItem(Some(g.title), Some(g.description), Some(g.taskType), Some(g.priority))
  }

  /** An entry of the `tasks` list as the handler reads it. */
  function DecodePlanItem(j: Json): (item: PlanItem)
    ensures HasRequiredKeys(item) <==>
      && j.JObj? && "title" in j.fields && "description" in j.fields && "type" in j.fields
      && j.fields["title"].JStr? && j.fields["description"].JStr? && j.fields["type"].JStr?
    ensures item.title.Some? ==> Field(j, "title") == Some(JStr(item.title.value))
    ensures item.description.Some? ==> Field(j, "description") == Some(JStr(item.description.value))
    ensures item.taskType.Some? ==> Field(j, "type") == Some(JStr(item.taskType.value))
    ensures item.priority.Some? ==> Field(j, "priority") == Some(JNum(item.priority.value))
  {
    PlanItem(StrAt(j, "title"), StrAt(j, "description"), StrAt(j, "type"), IntAt(j, "priority"))
  }

  /** The body of `POST /orchestrator/execute-plan` as the handler reads it:
      `None` when the body is falsy or has no `tasks` key. A `tasks` value
      that is not a list makes the loop raise, which the model folds into a
      single incomplete entry. */
  function DecodePlan(j: Json): (r: Option<seq<PlanItem>>)
    ensures r.None? <==> Falsy(j) || !j.JObj? || "tasks" !in j.fields
    ensures r.Some? && j.fields["tasks"].JArr? ==>
      |r.value| == |j.fields["tasks"].items|
      && forall i :: 0 <= i < |r.value| ==> r.value[i] == DecodePlanItem(j.fields["tasks"].items[i])
    ensures r.Some? && !j.fields["tasks"].JArr? ==> |r.value| == 1 && !HasRequiredKeys(r.value[0])
  {
    if Falsy(j) || !j.JObj? || "tasks" !in j.fields then None
    else if j.fields["tasks"].JArr? then
      var xs := j.fields["tasks"].items;
      Some(seq(|xs|, i requires 0 <= i < |xs| => DecodePlanItem(xs[i])))
    else Some([PlanItem(None, None, None, None)])
  }

  /** A proposal as the server sends it reads back as the plan entry it
      stands for. */
  lemma SuggestionRoundTrip(g: Suggestion)
    ensures DecodePlanItem(SuggestionJson(g)) == ItemOf(g)
  {
  }

  /** The pending task stored for a plan entry. */
  function PlanTask(id: nat, item: PlanItem, agentId: Option<nat>, now: nat): (t: Task)
    requires HasRequiredKeys(item)
    ensures t.id == id && t.status == PENDING && t.agentId == agentId
    ensures t.title == item.title.value && t.description == item.description.value
    ensures t.taskType == item.taskType.value
    ensures t.priority == (if item.priority.Some? then item.priority.value else 1)
  {
    NewTask(id, item.title.value, item.description.value, item.taskType.value, item.priority, now).(agentId := agentId)
  }

  /** The ids of the agents a list of tasks is assigned to. */
  function AssignedAgents(ts: seq<Task>): set<nat>
  {
    set i | 0 <= i < |ts| && ts[i].agentId.Some? :: ts[i].agentId.value
  }

  /** Every assigned agent was idle, of its task's type, in `agents`. */
  ghost predicate TakenFromIdle(agents: map<nat, Agent>, ts: seq<Task>)
  {
    forall i :: 0 <= i < |ts| && ts[i].agentId.Some? ==> IdleOfType(agents, ts[i].agentId.value, ts[i].taskType)
  }

  /** No agent is assigned to two of the tasks. */
  ghost predicate DistinctAgents(ts: seq<Task>)
  {
    forall i, j :: 0 <= i < j < |ts| && ts[i].agentId.Some? ==> ts[i].agentId != ts[j].agentId
  }

  /** Each task took the lowest-id agent of its type that was idle before
      the plan and not taken by an earlier task, and went without an agent
      only when no such agent was left. */
  ghost predicate LowestFree(agents: map<nat, Agent>, ts: seq<Task>)
  {
    forall i, k :: 0 <= i < |ts| && IdleOfType(agents, k, ts[i].taskType) && k !in AssignedAgents(ts[..i]) ==>
      ts[i].agentId.Some? && ts[i].agentId.value <= k
  }

  /** `after` is `before` with exactly the assigned agents marked busy. */
  ghost predicate MarkedBusy(before: map<nat, Agent>, after: map<nat, Agent>, ts: seq<Task>, now: nat)
  {
    && after.Keys == before.Keys
    && forall k :: k in before ==>
         after[k] == if k in AssignedAgents(ts) then before[k].(status := BUSY, updatedAt := now) else before[k]
  }

  /** The tasks stored for `items`, in order, under consecutive ids from
      `first`. */
  ghost predicate StoredInOrder(tasks: map<nat, Task>, first: nat, items: seq<PlanItem>, ts: seq<Task>, now: nat)
  {
    && |ts| == |items|
    && forall i :: 0 <= i < |items| ==>
         && HasRequiredKeys(items[i])
         && ts[i] == PlanTask(first + i, items[i], ts[i].agentId, now)
         && first + i in tasks && tasks[first + i] == ts[i]
  }

  datatype Created = Created(store: Store, tasks: seq<Task>)

  /** Creates the tasks of a plan one by one, auto-assigning each as it is
      created, so that an agent taken by one entry is busy for the next. */
  function CreatePlanTasks(s: Store, items: seq<PlanItem>, now: nat): (r: Created)
    requires Valid(s)
    requires forall i :: 0 <= i < |items| ==> HasRequiredKeys(items[i])
    decreases |items|
    ensures Valid(r.store)
    ensures r.store.nextTaskId == s.nextTaskId + |items| && r.store.nextAgentId == s.nextAgentId
    ensures forall k :: k in r.store.tasks <==> k in s.tasks || s.nextTaskId <= k < s.nextTaskId + |items|
    ensures forall k :: k in s.tasks ==> r.store.tasks[k] == s.tasks[k]
    ensures StoredInOrder(r.store.tasks, s.nextTaskId, items, r.tasks, now)
    ensures TakenFromIdle(s.agents, r.tasks)
    ensures DistinctAgents(r.tasks)
    ensures MarkedBusy(s.agents, r.store.agents, r.tasks, now)
    ensures LowestFree(s.agents, r.tasks)
  {
    if |items| == 0 then Created(s, [])
    else
      assert HasRequiredKeys(items[0]);
      var asg := AutoAssign(s, items[0].taskType.value, now);
      var t := PlanTask(s.nextTaskId, items[0], asg.agentId, now);
      var s1 := asg.store.(tasks := asg.store.tasks[t.id := t], nextTaskId := t.id + 1);
      assert Valid(s1);
      var rest := CreatePlanTasks(s1, items[1..], now);
      KeysStep(s, s1, t, |items| - 1, rest.store);
      var ts := [t] + rest.tasks;
      StoredStep(s, s1, t, items, rest, ts, now);
      AgentsStep(s, asg, t, rest.store.agents, rest.tasks, ts, now);
      LowestFreeStep(s, asg, t, rest.tasks, ts, now);
      Created(rest.store, ts)
  }

  /** The id bookkeeping step of `CreatePlanTasks`: the new task's id and
      the ids the rest of the plan takes follow the old ones. */
  lemma KeysStep(s: Store, s1: Store, t: Task, n: nat, rest: Store)
    requires Valid(s) && t.id == s.nextTaskId
    requires s1.tasks == s.tasks[t.id := t] && s1.nextTaskId == t.id + 1
    requires forall k :: k in rest.tasks <==> k in s1.tasks || s1.nextTaskId <= k < s1.nextTaskId + n
    requires forall k :: k in s1.tasks ==> rest.tasks[k] == s1.tasks[k]
    ensures forall k :: k in rest.tasks <==> k in s.tasks || s.nextTaskId <= k < s.nextTaskId + n + 1
    ensures forall k :: k in s.tasks ==> rest.tasks[k] == s.tasks[k]
  {
  }

  /** The task bookkeeping step of `CreatePlanTasks`. */
  lemma StoredStep(s: Store, s1: Store, t: Task, items: seq<PlanItem>, rest: Created, ts: seq<Task>, now: nat)
    requires |items| > 0 && HasRequiredKeys(items[0])
    requires t == PlanTask(s.nextTaskId, items[0], t.agentId, now)
    requires s1.tasks == s.tasks[t.id := t] && s1.nextTaskId == t.id + 1
    requires ts == [t] + rest.tasks
    requires forall k :: k in s1.tasks ==> k in rest.store.tasks && rest.store.tasks[k] == s1.tasks[k]
    requires StoredInOrder(rest.store.tasks, s1.nextTaskId, items[1..], rest.tasks, now)
    ensures StoredInOrder(rest.store.tasks, s.nextTaskId, items, ts, now)
  {
    forall i | 0 <= i < |items|
      ensures && HasRequiredKeys(items[i])
              && ts[i] == PlanTask(s.nextTaskId + i, items[i], ts[i].agentId, now)
              && s.nextTaskId + i in rest.store.tasks && rest.store.tasks[s.nextTaskId + i] == ts[i]
    {
      if i > 0 {
        assert ts[i] == rest.tasks[i - 1] && items[i] == items[1..][i - 1];
      }
    }
  }

  /** The agent bookkeeping step of `CreatePlanTasks`: the first entry
      takes the agent auto-assignment picks, and the rest take agents that
      were still idle after that. */
  lemma AgentsStep(s: Store, asg: Assignment, t: Task, after: map<nat, Agent>, rest: seq<Task>, ts: seq<Task>, now: nat)
    requires Valid(s)
    requires asg == AutoAssign(s, t.taskType, now) && t.agentId == asg.agentId
    requires ts == [t] + rest
    requires TakenFromIdle(asg.store.agents, rest)
    requires DistinctAgents(rest)
    requires MarkedBusy(asg.store.agents, after, rest, now)
    ensures TakenFromIdle(s.agents, ts)
    ensures DistinctAgents(ts)
    ensures MarkedBusy(s.agents, after, ts, now)
  {
    AssignedCons(t, rest);
    forall i | 0 <= i < |ts| && ts[i].agentId.Some?
      ensures IdleOfType(s.agents, ts[i].agentId.value, ts[i].taskType)
    {
      if i > 0 {
        assert ts[i] == rest[i - 1];
      }
    }
    forall i, j | 0 <= i < j < |ts| && ts[i].agentId.Some?
      ensures ts[i].agentId != ts[j].agentId
    {
      assert ts[j] == rest[j - 1];
      if i > 0 {
        assert ts[i] == rest[i - 1];
      }
    }
    forall k | k in s.agents
      ensures after[k] == if k in AssignedAgents(ts) then s.agents[k].(status := BUSY, updatedAt := now) else s.agents[k]
    {
      if asg.agentId == Some(k) {
        forall i | 0 <= i < |rest| && rest[i].agentId.Some? ensures rest[i].agentId.value != k {
          assert IdleOfType(asg.store.agents, rest[i].agentId.value, rest[i].taskType);
        }
        assert k !in AssignedAgents(rest);
        assert ts[0].agentId == Some(k);
        assert after[k] == asg.store.agents[k];
      } else {
        assert k !in AssignedAgents([t]);
        assert asg.store.agents[k] == s.agents[k];
      }
    }
  }

  /** The agents assigned to a task followed by a list are the first
      task's agent and those of the list. */
  lemma AssignedCons(t: Task, rest: seq<Task>)
    ensures AssignedAgents([t] + rest) == AssignedAgents([t]) + AssignedAgents(rest)
  {
    var ts := [t] + rest;
    forall k | k in AssignedAgents(ts) ensures k in AssignedAgents([t]) + AssignedAgents(rest) {
      var i :| 0 <= i < |ts| && ts[i].agentId.Some? && ts[i].agentId.value == k;
      if i > 0 { assert rest[i - 1] == ts[i]; }
    }
    forall k | k in AssignedAgents(rest) ensures k in AssignedAgents(ts) {
      var i :| 0 <= i < |rest| && rest[i].agentId.Some? && rest[i].agentId.value == k;
      assert ts[i + 1] == rest[i];
    }
    forall k | k in AssignedAgents([t]) ensures k in AssignedAgents(ts) {
      assert ts[0] == t;
    }
  }

  /** The assignment step of `CreatePlanTasks`: the first entry takes the
      lowest-id idle agent of its type, and an agent the rest finds still
      free is one the first entry did not take. */
  lemma LowestFreeStep(s: Store, asg: Assignment, t: Task, rest: seq<Task>, ts: seq<Task>, now: nat)
    requires Valid(s)
    requires asg == AutoAssign(s, t.taskType, now) && t.agentId == asg.agentId
    requires ts == [t] + rest
    requires LowestFree(asg.store.agents, rest)
    ensures LowestFree(s.agents, ts)
  {
    forall i, k | 0 <= i < |ts| && IdleOfType(s.agents, k, ts[i].taskType) && k !in AssignedAgents(ts[..i])
      ensures ts[i].agentId.Some? && ts[i].agentId.value <= k
    {
      if i > 0 {
        assert ts[i] == rest[i - 1];
        assert ts[..i] == [t] + rest[..i - 1];
        AssignedCons(t, rest[..i - 1]);
        assert [t][0] == t;
        assert asg.store.agents[k] == s.agents[k];
      }
    }
  }

  datatype PlanResult = PlanResult(message: string, tasks: seq<Task>, totalTasks: nat)

  /** `POST /orchestrator/execute-plan`. A missing body or `tasks` key is
      refused. An entry without `title`, `description` or `type` raises
      `KeyError` before the commit, so nothing is stored. Otherwise one
      `pending` task per entry is created, in entry order, and the count is
      reported. */
  function ExecutePlan(s: Store, body: Option<seq<PlanItem>>, now: nat): (r: Reply<PlanResult>)
    requires Valid(s)
    ensures Valid(r.store)
    ensures body.None? ==> r == Reply(s, Fail(HTTP_BAD_REQUEST, "Tasks list is required"))
    ensures body.Some? && (exists i :: 0 <= i < |body.value| && !HasRequiredKeys(body.value[i])) ==>
      r.store == s && r.response.Fail? && r.response.code == HTTP_SERVER_ERROR
    ensures r.response.Ok? <==> body.Some? && forall i :: 0 <= i < |body.value| ==> HasRequiredKeys(body.value[i])
    ensures r.response.Ok? ==>
      var items := body.value;
      && r.response.code == HTTP_OK
      && r.response.body.totalTasks == |items| == |r.response.body.tasks|
      && r.store.nextTaskId == s.nextTaskId + |items| && r.store.nextAgentId == s.nextAgentId
      && (forall k :: k in r.store.tasks <==> k in s.tasks || s.nextTaskId <= k < s.nextTaskId + |items|)
      && (forall k :: k in s.tasks ==> r.store.tasks[k] == s.tasks[k])
      && StoredInOrder(r.store.tasks, s.nextTaskId, items, r.response.body.tasks, now)
      && TakenFromIdle(s.agents, r.response.body.tasks)
      && DistinctAgents(r.response.body.tasks)
      && MarkedBusy(s.agents, r.store.agents, r.response.body.tasks, now)
      && LowestFree(s.agents, r.response.body.tasks)
  {
    if body.None? then Reply(s, Fail(HTTP_BAD_REQUEST, "Tasks list is required"))
    else if exists i :: 0 <= i < |body.value| && !HasRequiredKeys(body.value[i]) then
      Reply(s, Fail(HTTP_SERVER_ERROR, "Internal Server Error"))
    else
      var c := CreatePlanTasks(s, body.value, now);
      Reply(c.store, Ok(HTTP_OK, PlanResult("Coordinated plan created successfully", c.tasks, |c.tasks|)))
  }

  /** Sending proposals back as a plan, as the client does with the
      planner's `suggested_tasks`, creates exactly one pending task per
      proposal, in order, with the proposal's type, title and priority. */
  lemma {:induction false} ExecuteSuggestions(s: Store, plan: seq<Suggestion>, now: nat)
    requires Valid(s)
    ensures var r := ExecutePlan(s, Some(PlanOf(plan)), now);
      && r.response.Ok?
      && r.response.body.totalTasks == |plan|
      && forall i :: 0 <= i < |plan| ==>
           && r.response.body.tasks[i].taskType == plan[i].taskType
           && r.response.body.tasks[i].title == plan[i].title
           && r.response.body.tasks[i].priority == plan[i].priority
           && r.response.body.tasks[i].status == PENDING
  {
    var items := PlanOf(plan);
    var r := ExecutePlan(s, Some(items), now);
    forall i | 0 <= i < |plan|
      ensures && r.response.body.tasks[i].taskType == plan[i].taskType
              && r.response.body.tasks[i].title == plan[i].title
              && r.response.body.tasks[i].priority == plan[i].priority
              && r.response.body.tasks[i].status == PENDING
    {
      var t := r.response.body.tasks[i];
      assert t == PlanTask(s.nextTaskId + i, items[i], t.agentId, now);
    }
  }

  /** The plan entries proposals are sent as. */
  function PlanOf(plan: seq<Suggestion>): (items: seq<PlanItem>)
    ensures |items| == |plan|
    ensures forall i :: 0 <= i < |plan| ==> items[i] == ItemOf(plan[i]) && HasRequiredKeys(items[i])
  {
    seq(|plan|, i requires 0 <= i < |plan| => ItemOf(plan[i]))
  }

  /** The ids of the agents with a given status. */
  function AgentsWith(s: Store, status: string): set<nat>
  {
    set k | k in s.agents && s.agents[k].status == status
  }

  /** The ids of the tasks with a given status. */
  function TasksWith(s: Store, status: string): set<nat>
  {
    set k | k in s.tasks && s.tasks[k].status == status
  }

  /** `agent_statistics`: each status held by some agent, with the number
      of agents holding it. */
  function AgentStatistics(s: Store): (m: map<string, nat>)
    ensures forall st :: st in m <==> exists k :: k in s.agents && s.agents[k].status == st
    ensures forall st :: st in m ==> m[st] == |AgentsWith(s, st)| && m[st] >= 1
  {
    var m := map st | st in (set k | k in s.agents :: s.agents[k].status) :: |AgentsWith(s, st)|;
    assert forall st :: st in m ==> m[st] >= 1 by {
      forall st | st in m ensures m[st] >= 1 {
        var k :| k in s.agents && s.agents[k].status == st;
        Populated(AgentsWith(s, st), k);
      }
    }
    m
  }

  /** `task_statistics`: each status held by some task, with the number of
      tasks holding it. */
  function TaskStatistics(s: Store): (m: map<string, nat>)
    ensures forall st :: st in m <==> exists k :: k in s.tasks && s.tasks[k].status == st
    ensures forall st :: st in m ==> m[st] == |TasksWith(s, st)| && m[st] >= 1
  {
    var m := map st | st in (set k | k in s.tasks :: s.tasks[k].status) :: |TasksWith(s, st)|;
    assert forall st :: st in m ==> m[st] >= 1 by {
      forall st | st in m ensures m[st] >= 1 {
        var k :| k in s.tasks && s.tasks[k].status == st;
        Populated(TasksWith(s, st), k);
      }
    }
    m
  }

  lemma Populated(ks: set<nat>, k: nat)
    requires k in ks
    ensures |ks| >= 1
  {
    assert ks == (ks - {k}) + {k};
  }

  datatype StatusSummary = StatusSummary(
    agentStatistics: map<string, nat>,
    taskStatistics: map<string, nat>,
    recentActivity: seq<Task>,
    systemHealth: string)

  /** The update time of every task, the column the recent activity is
      ordered by. */
  function UpdatedAt(s: Store): (rank: map<nat, int>)
    ensures rank.Keys == s.tasks.Keys
    ensures forall k :: k in s.tasks ==> rank[k] == s.tasks[k].updatedAt
  {
    map k | k in s.tasks :: s.tasks[k].updatedAt
  }

  /** `GET /orchestrator/status`: per-status counts of agents and tasks and
      the five most recently updated tasks, newest first. */
  method GetOrchestratorStatus(s: Store) returns (r: StatusSummary)
    requires Valid(s)
    ensures r.agentStatistics == AgentStatistics(s)
    ensures r.taskStatistics == TaskStatistics(s)
    ensures r.systemHealth == "operational"
    ensures |r.recentActivity| == if |s.tasks| < 5 then |s.tasks| else 5
    ensures forall i :: 0 <= i < |r.recentActivity| ==>
      r.recentActivity[i].id in s.tasks && s.tasks[r.recentActivity[i].id] == r.recentActivity[i]
    ensures forall i, j :: 0 <= i < j < |r.recentActivity| ==>
      r.recentActivity[i].id != r.recentActivity[j].id
      && r.recentActivity[i].updatedAt >= r.recentActivity[j].updatedAt
    ensures forall i, k :: 0 <= i < |r.recentActivity| && k in s.tasks && s.tasks[k] !in r.recentActivity ==>
      s.tasks[k].updatedAt <= r.recentActivity[i].updatedAt
  {
    var recent := RecentActivity(s);
    r := StatusSummary(AgentStatistics(s), TaskStatistics(s), recent, "operational");
  }

  /** The recent activity of the status summary: the five most recently
      updated tasks (all of them when there are fewer), newest first. */
  method RecentActivity(s: Store) returns (recent: seq<Task>)
    requires Valid(s)
    ensures |recent| == if |s.tasks| < 5 then |s.tasks| else 5
    ensures forall i :: 0 <= i < |recent| ==> recent[i].id in s.tasks && s.tasks[recent[i].id] == recent[i]
    ensures forall i, j :: 0 <= i < j < |recent| ==>
      recent[i].id != recent[j].id && recent[i].updatedAt >= recent[j].updatedAt
    ensures forall i, k :: 0 <= i < |recent| && k in s.tasks && s.tasks[k] !in recent ==>
      s.tasks[k].updatedAt <= recent[i].updatedAt
  {
    var rank := UpdatedAt(s);
    var ids := KeysDescending(rank);
    ListsSetOnce(ids, s.tasks.Keys);
    var n := if |ids| < 5 then |ids| else 5;
    TopOutranksRest(ids, rank, n);
    recent := Recent(s, ids[..n]);
    TopRows(s, rank, ids, n, recent);
  }

  /** The rows of the first `n` ids of a listing by update time, newest
      first, are the newest `n` tasks, newest first. */
  lemma TopRows(s: Store, rank: map<nat, int>, ids: seq<nat>, n: nat, recent: seq<Task>)
    requires Valid(s) && rank == UpdatedAt(s)
    requires DescendingBy(ids, rank) && n <= |ids|
    requires forall i, j :: 0 <= i < j < |ids| ==> ids[i] != ids[j]
    requires forall i, k :: 0 <= i < n && k in rank && k !in ids[..n] ==> rank[k] <= rank[ids[i]]
    requires recent == Recent(s, ids[..n])
    ensures forall i :: 0 <= i < |recent| ==> recent[i].id in s.tasks && s.tasks[recent[i].id] == recent[i]
    ensures forall i, j :: 0 <= i < j < |recent| ==>
      recent[i].id != recent[j].id && recent[i].updatedAt >= recent[j].updatedAt
    ensures forall i, k :: 0 <= i < |recent| && k in s.tasks && s.tasks[k] !in recent ==>
      s.tasks[k].updatedAt <= recent[i].updatedAt
  {
    assert forall i :: 0 <= i < n ==> recent[i].updatedAt == rank[ids[i]];
    forall i, k | 0 <= i < n && k in s.tasks && s.tasks[k] !in recent
      ensures s.tasks[k].updatedAt <= recent[i].updatedAt
    {
      assert k !in ids[..n];
    }
  }

  /** The rows of a list of task ids. */
  function Recent(s: Store, ids: seq<nat>): (r: seq<Task>)
    requires Valid(s)
    requires forall i :: 0 <= i < |ids| ==> ids[i] in s.tasks
    ensures |r| == |ids|
    ensures forall i :: 0 <= i < |ids| ==> r[i] == s.tasks[ids[i]] && r[i].id == ids[i]
    ensures forall k :: k in s.tasks && s.tasks[k] in r ==> k in ids
  {
    seq(|ids|, i requires 0 <= i < |ids| => s.tasks[ids[i]])
  }

  /** The body of `POST /orchestrator/agents/recommend`. */
  datatype RecommendBody = RecommendBody(taskType: Option<string>)

  /** The answer of the recommendation: the first idle agent of the type and
      every idle one, or, with none idle, every agent of the type. */
  datatype Recommendation =
    | Recommended(agent: Agent, available: seq<Agent>)
    | NoIdleAgent(agentsOfType: seq<Agent>)

  /** `POST /orchestrator/agents/recommend`. */
  function RecommendAgent(s: Store, body: Option<RecommendBody>): (r: Response<Recommendation>)
    requires Valid(s)
    ensures r.Fail? <==> body.None? || body.value.taskType.None?
    ensures r.Fail? ==> r == Fail(HTTP_BAD_REQUEST, "Task type is required")
    ensures r.Ok? ==> r.code == HTTP_OK
    ensures r.Ok? && r.body.Recommended? ==>
      var t := body.value.taskType.value;
      && |r.body.available| > 0 && r.body.agent == r.body.available[0]
      && (forall i :: 0 <= i < |r.body.available| ==>
            r.body.available[i].agentType == t && r.body.available[i].status == IDLE
            && r.body.available[i].id in s.agents && s.agents[r.body.available[i].id] == r.body.available[i])
      && (forall k :: IdleOfType(s.agents, k, t) ==>
            exists i :: 0 <= i < |r.body.available| && r.body.available[i].id == k)
      && (forall i, j :: 0 <= i < j < |r.body.available| ==> r.body.available[i].id < r.body.available[j].id)
    ensures r.Ok? && r.body.NoIdleAgent? ==>
      var t := body.value.taskType.value;
      && (forall k: nat :: !IdleOfType(s.agents, k, t))
      && (forall i :: 0 <= i < |r.body.agentsOfType| ==>
            r.body.agentsOfType[i].agentType == t
            && r.body.agentsOfType[i].id in s.agents && s.agents[r.body.agentsOfType[i].id] == r.body.agentsOfType[i])
      && (forall k :: k in s.agents && s.agents[k].agentType == t ==>
            exists i :: 0 <= i < |r.body.agentsOfType| && r.body.agentsOfType[i].id == k)
      && (forall i, j :: 0 <= i < j < |r.body.agentsOfType| ==> r.body.agentsOfType[i].id < r.body.agentsOfType[j].id)
  {
    if body.None? || body.value.taskType.None? then Fail(HTTP_BAD_REQUEST, "Task type is required")
    else
      var t := body.value.taskType.value;
      var idle := AgentsWhere(s, (a: Agent) => a.agentType == t && a.status == IDLE);
      if idle == [] then Ok(HTTP_OK, NoIdleAgent(AgentsWhere(s, (a: Agent) => a.agentType == t)))
      else Ok(HTTP_OK, Recommended(idle[0], idle))
  }

  /** The recommended agent is the one task creation would assign: both
      take the first idle agent of the type. */
  lemma RecommendMatchesAutoAssign(s: Store, t: string)
    requires Valid(s)
    ensures var r := RecommendAgent(s, Some(RecommendBody(Some(t))));
      && r.Ok?
      && (r.body.Recommended? <==> PickIdle(s, t).Some?)
      && (r.body.Recommended? ==> PickIdle(s, t) == Some(r.body.agent.id))
  {
    var r := RecommendAgent(s, Some(RecommendBody(Some(t))));
    var idle := AgentsWhere(s, (a: Agent) => a.agentType == t && a.status == IDLE);
    var pick := PickIdle(s, t);
    if pick.Some? {
      assert exists i :: 0 <= i < |idle| && idle[i].id == pick.value;
      var i :| 0 <= i < |idle| && idle[i].id == pick.value;
      assert IdleOfType(s.agents, idle[0].id, t);
      assert idle[0].id >= pick.value;
    } else if idle != [] {
      assert IdleOfType(s.agents, idle[0].id, t);
    }
  }
}

=== FILE: sorting.dfy ===
/** Ordering rows by a column, descending (`ORDER BY column DESC`). Rows are
    named by their ids and `rank` gives each id its column value. Rows
    whose column values are equal may come in any order, as in SQL. */
module Sorting {

  ghost predicate DescendingBy(ids: seq<nat>, rank: map<nat, int>)
  {
    && (forall i :: 0 <= i < |ids| ==> ids[i] in rank)
    && (forall i, j :: 0 <= i < j < |ids| ==> rank[ids[i]] >= rank[ids[j]])
  }

  /** Inserts `k` into a descending list, after every id of equal or
      greater rank. */
  function InsertDescending(ids: seq<nat>, k: nat, rank: map<nat, int>): (r: seq<nat>)
    requires k in rank
    requires DescendingBy(ids, rank)
    ensures DescendingBy(r, rank)
    ensures multiset(r) == multiset(ids) + multiset{k}
  {
    if |ids| == 0 then [k]
    else if rank[ids[0]] >= rank[k] then
      DescendingTail(ids, rank);
      var rest := InsertDescending(ids[1..], k, rank);
      PrependDescending(ids[0], rest, ids[1..], k, rank);
      assert ids == [ids[0]] + ids[1..];
      [ids[0]] + rest
    else
      LeadDescending(k, ids, rank);
      [k] + ids
  }

  /** The tail of a descending list is descending and ranked at most its
      head. */
  lemma DescendingTail(ids: seq<nat>, rank: map<nat, int>)
    requires |ids| > 0 && DescendingBy(ids, rank)
    ensures DescendingBy(ids[1..], rank)
    ensures forall i :: 0 <= i < |ids| - 1 ==> rank[ids[0]] >= rank[ids[1..][i]]
  {
    forall i | 0 <= i < |ids| - 1 ensures rank[ids[0]] >= rank[ids[1..][i]] {
      assert ids[1..][i] == ids[i + 1];
    }
  }

  /** An id ranked above the head of a descending list may lead it. */
  lemma LeadDescending(k: nat, ids: seq<nat>, rank: map<nat, int>)
    requires k in rank && |ids| > 0 && DescendingBy(ids, rank) && rank[ids[0]] < rank[k]
    ensures DescendingBy([k] + ids, rank)
  {
    var r := [k] + ids;
    forall i, j | 0 <= i < j < |r| ensures rank[r[i]] >= rank[r[j]] {
      if i > 0 {
        assert r[i] == ids[i - 1] && r[j] == ids[j - 1];
      } else {
        assert r[j] == ids[j - 1];
      }
    }
  }

  /** An id whose rank bounds every element of `rest` may lead it. */
  lemma PrependDescending(x: nat, rest: seq<nat>, tail: seq<nat>, k: nat, rank: map<nat, int>)
    requires x in rank && k in rank && rank[x] >= rank[k]
    requires DescendingBy(tail, rank) && DescendingBy(rest, rank)
    requires forall i :: 0 <= i < |tail| ==> rank[x] >= rank[tail[i]]
    requires multiset(rest) == multiset(tail) + multiset{k}
    ensures DescendingBy([x] + rest, rank)
  {
    forall j | 0 <= j < |rest|
      ensures rank[x] >= rank[rest[j]]
    {
      assert rest[j] in multiset(rest);
      if rest[j] != k {
        assert rest[j] in multiset(tail);
        var i :| 0 <= i < |tail| && tail[i] == rest[j];
      }
    }
  }

  /** Every id of `rank` exactly once, in descending rank. */
  method KeysDescending(rank: map<nat, int>) returns (ids: seq<nat>)
    ensures DescendingBy(ids, rank)
    ensures multiset(ids) == multiset(rank.Keys)
  {
    ids := [];
    var rest := rank.Keys;
    while rest != {}
      invariant rest <= rank.Keys
      invariant DescendingBy(ids, rank)
      invariant multiset(ids) + multiset(rest) == multiset(rank.Keys)
      decreases rest
    {
      var k :| k in rest;
      ids := InsertDescending(ids, k, rank);
      assert multiset(rest) == multiset(rest - {k}) + multiset{k};
      rest := rest - {k};
    }
  }

  /** A value at two positions is counted twice. */
  lemma RepeatCounted(ids: seq<nat>, i: nat, j: nat)
    requires i < j < |ids| && ids[i] == ids[j]
    ensures multiset(ids)[ids[i]] >= 2
  {
    var x := ids[i];
    assert ids == ids[..i] + [x] + ids[i + 1..j] + [x] + ids[j + 1..];
  }

  /** A list holding each id of a set exactly once has as many entries as
      the set and no repeated entry. */
  lemma {:induction false} ListsSetOnce(ids: seq<nat>, keys: set<nat>)
    requires multiset(ids) == multiset(keys)
    ensures |ids| == |keys|
    ensures forall i, j :: 0 <= i < j < |ids| ==> ids[i] != ids[j]
  {
    assert |multiset(ids)| == |multiset(keys)|;
    forall i, j | 0 <= i < j < |ids| ensures ids[i] != ids[j] {
      if ids[i] == ids[j] {
        RepeatCounted(ids, i, j);
        assert false;
      }
    }
  }

  /** The first `n` ids of a descending listing of every key outrank every
      key left out of them. */
  lemma {:induction false} TopOutranksRest(ids: seq<nat>, rank: map<nat, int>, n: nat)
    requires DescendingBy(ids, rank) && multiset(ids) == multiset(rank.Keys)
    requires n <= |ids|
    ensures forall i, k :: 0 <= i < n && k in rank && k !in ids[..n] ==> rank[k] <= rank[ids[i]]
  {
    forall i, k | 0 <= i < n && k in rank && k !in ids[..n]
      ensures rank[k] <= rank[ids[i]]
    {
      assert k in multiset(ids);
      var j :| 0 <= j < |ids| && ids[j] == k;
    }
  }
}

=== FILE: store.dfy ===
/** The server's database: the `tasks` and `agents` tables as id-keyed maps,
    the responses the request handlers return, and the agent lookups the
    handlers share. Ids come from per-table counters starting at 1. */
module Store {
  import opened Common
  import opened TaskRecord
  import opened AgentRecord

  datatype Store = Store(
    tasks: map<nat, Task>,
    agents: map<nat, Agent>,
    nextTaskId: nat,
    nextAgentId: nat)

  /** Every row is stored under its own id, and every id is below the
      table's counter. */
  ghost predicate Valid(s: Store)
  {
    && 1 <= s.nextTaskId
    && 1 <= s.nextAgentId
    && (forall k :: k in s.tasks ==> 1 <= k < s.nextTaskId && s.tasks[k].id == k)
    && (forall k :: k in s.agents ==> 1 <= k < s.nextAgentId && s.agents[k].id == k)
  }

  const HTTP_OK: nat := 200
  const HTTP_CREATED: nat := 201
  const HTTP_BAD_REQUEST: nat := 400
  const HTTP_NOT_FOUND: nat := 404
  const HTTP_SERVER_ERROR: nat := 500

  /** The message of the 404 that `get_or_404` raises. */
  const NOT_FOUND_MESSAGE: string := "Not Found"

  /** What a request handler answers: a body, or an error. A body that is
      a row is sent as that row's dictionary. */
  datatype Response<+T> = Ok(code: nat, body: T) | Fail(code: nat, message: string)

  /** The database after a request, and the answer. */
  datatype Reply<+T> = Reply(store: Store, response: Response<T>)

  predicate IdleOfType(agents: map<nat, Agent>, k: nat, agentType: string)
  {
    k in agents && agents[k].agentType == agentType && agents[k].status == IDLE
  }

  /** The lowest id in `[lo, hi)` of an idle agent of the given type. */
  function FirstIdle(agents: map<nat, Agent>, agentType: string, lo: nat, hi: nat): (r: Option<nat>)
    decreases hi - lo
    ensures r.Some? ==> lo <= r.value < hi && IdleOfType(agents, r.value, agentType)
    ensures r.Some? ==> forall k :: lo <= k < r.value ==> !IdleOfType(agents, k, agentType)
    ensures r.None? ==> forall k :: lo <= k < hi ==> !IdleOfType(agents, k, agentType)
  {
    if lo >= hi then None
    else if IdleOfType(agents, lo, agentType) then Some(lo)
    else FirstIdle(agents, agentType, lo + 1, hi)
  }

  /** `Agent.query.filter_by(type=..., status='idle').first()`: the query
      has no ORDER BY, and the model fixes the choice to the idle agent of
      that type with the lowest id. */
  function PickIdle(s: Store, agentType: string): (r: Option<nat>)
    requires Valid(s)
    ensures r.Some? ==> IdleOfType(s.agents, r.value, agentType)
    ensures r.Some? ==> forall k: nat :: k < r.value ==> !IdleOfType(s.agents, k, agentType)
    ensures r.None? ==> forall k: nat :: !IdleOfType(s.agents, k, agentType)
  {
    FirstIdle(s.agents, agentType, 1, s.nextAgentId)
  }

  /** The outcome of auto-assignment: the agent chosen, if any, and the
      database with that agent marked busy. */
  datatype Assignment = Assignment(agentId: Option<nat>, store: Store)

  /** Picks an idle agent of the task's type and marks it `busy`; with no
      such agent nothing changes. */
  function AutoAssign(s: Store, taskType: string, now: nat): (r: Assignment)
    requires Valid(s)
    ensures Valid(r.store)
    ensures r.agentId == PickIdle(s, taskType)
    ensures r.store.tasks == s.tasks && r.store.nextTaskId == s.nextTaskId
    ensures r.store.nextAgentId == s.nextAgentId
    ensures r.agentId.None? ==> r.store == s
    ensures r.agentId.Some? ==>
      var a := r.agentId.value;
      && a in s.agents && s.agents[a].status == IDLE && s.agents[a].agentType == taskType
      && r.store.agents == s.agents[a := s.agents[a].(status := BUSY, updatedAt := now)]
  {
    var pick := PickIdle(s, taskType);
    if pick.Some? then
      var a := pick.value;
      Assignment(pick, s.(agents := s.agents[a := s.agents[a].(status := BUSY, updatedAt := now)]))
    else
      Assignment(None, s)
  }

  /** Stores a new task under the next id. */
  function AddTask(s: Store, t: Task): (s': Store)
    requires Valid(s) && t.id == s.nextTaskId
    ensures Valid(s')
    ensures s' == s.(tasks := s.tasks[t.id := t], nextTaskId := t.id + 1)
  {
    s.(tasks := s.tasks[t.id := t], nextTaskId := t.id + 1)
  }

  /** Replaces a stored task by a new version of it. */
  function PutTask(s: Store, t: Task): (s': Store)
    requires Valid(s) && t.id in s.tasks
    ensures Valid(s')
    ensures s' == s.(tasks := s.tasks[t.id := t])
  {
    s.(tasks := s.tasks[t.id := t])
  }

  /** `agent.status = 'idle'` for the agent a task refers to, when that
      agent still exists; every other row is left alone. */
  function FreeAgent(s: Store, agentId: Option<nat>, now: nat): (s': Store)
    requires Valid(s)
    ensures Valid(s')
    ensures s'.tasks == s.tasks && s'.nextTaskId == s.nextTaskId && s'.nextAgentId == s.nextAgentId
    ensures s'.agents.Keys == s.agents.Keys
    ensures forall k :: k in s.agents && Some(k) != agentId ==> s'.agents[k] == s.agents[k]
    ensures agentId.Some? && agentId.value in s.agents ==>
      s'.agents[agentId.value] == s.agents[agentId.value].(status := IDLE, updatedAt := now)
  {
    if agentId.Some? && agentId.value in s.agents then
      var a := agentId.value;
      s.(agents := s.agents[a := s.agents[a].(status := IDLE, updatedAt := now)])
    else
      s
  }

  /** The ids in `[lo, hi)` of agents satisfying `keep`, ascending. */
  function ScanAgents(agents: map<nat, Agent>, lo: nat, hi: nat, keep: Agent -> bool): (r: seq<nat>)
    decreases hi - lo
    ensures forall i :: 0 <= i < |r| ==> lo <= r[i] < hi && r[i] in agents && keep(agents[r[i]])
    ensures forall i, j :: 0 <= i < j < |r| ==> r[i] < r[j]
    ensures forall k :: lo <= k < hi && k in agents && keep(agents[k]) ==> k in r
  {
    if lo >= hi then []
    else if lo in agents && keep(agents[lo]) then [lo] + ScanAgents(agents, lo + 1, hi, keep)
    else ScanAgents(agents, lo + 1, hi, keep)
  }

  /** The agents satisfying `keep`, in ascending id order: the row order
      the model gives a query without ORDER BY. */
  function AgentsWhere(s: Store, keep: Agent -> bool): (r: seq<Agent>)
    requires Valid(s)
    ensures forall i :: 0 <= i < |r| ==> r[i].id in s.agents && s.agents[r[i].id] == r[i] && keep(r[i])
    ensures forall i, j :: 0 <= i < j < |r| ==> r[i].id < r[j].id
    ensures forall k :: k in s.agents && keep(s.agents[k]) ==> exists i :: 0 <= i < |r| && r[i].id == k
  {
    var ids := ScanAgents(s.agents, 1, s.nextAgentId, keep);
    var r := seq(|ids|, i requires 0 <= i < |ids| => s.agents[ids[i]]);
    assert forall i :: 0 <= i < |r| ==> r[i].id == ids[i];
    forall k | k in s.agents && keep(s.agents[k]) ensures exists i :: 0 <= i < |r| && r[i].id == k {
      var i := IndexOf(ids, k);
      assert r[i].id == k;
    }
    r
  }

  function IndexOf(ids: seq<nat>, k: nat): (i: nat)
    requires k in ids
    ensures i < |ids| && ids[i] == k
  {
    if ids[0] == k then 0 else 1 + IndexOf(ids[1..], k)
  }
}

=== FILE: task.dfy ===
/** The task record (the `tasks` table): column defaults, the JSON-valued
    `parameters` and `result` columns, and the dictionary sent over the
    wire. JSON text in a column is modelled by the decoded value it holds,
    so `json.dumps` followed by `json.loads` is the identity. */
module TaskRecord {
  import opened Common

  const PENDING: string := "pending"
  const IN_PROGRESS: string := "in_progress"
  const COMPLETED: string := "completed"
  const FAILED: string := "failed"

  /** One row of the `tasks` table. `None` is SQL NULL. Times are values of
      an abstract clock. */
  datatype Task = Task(
    id: nat,
    title: string,
    description: string,
    taskType: string,
    parameters: Option<Json>,
    status: string,
    priority: int,
    result: Option<Json>,
    errorMessage: Option<string>,
    createdAt: nat,
    updatedAt: nat,
    completedAt: Option<nat>,
    agentId: Option<nat>,
    parentTaskId: Option<nat>)

  /** A task built the way the server builds one: title and type are
      required, status starts at `pending`, priority defaults to 1, and
      every optional column is NULL. */
  function NewTask(id: nat, title: string, description: string, taskType: string,
                   priority: Option<int>, now: nat): (t: Task)
    ensures t.id == id && t.title == title && t.taskType == taskType
    ensures t.description == description
    ensures t.status == PENDING
    ensures priority.None? ==> t.priority == 1
    ensures priority.Some? ==> t.priority == priority.value
    ensures t.parameters.None? && t.result.None? && t.errorMessage.None?
    ensures t.completedAt.None? && t.agentId.None? && t.parentTaskId.None?
    ensures t.createdAt == now && t.updatedAt == now
  {
    Task(id, title, description, taskType, None, PENDING,
         if priority.Some? then priority.value else 1,
         None, None, now, now, None, None, None)
  }

  function SetParameters(t: Task, p: Json): (t': Task)
    ensures t'.parameters == Some(p)
    ensures t' == t.(parameters := t'.parameters)
  {
    t.(parameters := Some(p))
  }

  /** The parameters, or an empty object when the column is NULL. */
  function GetParameters(t: Task): (p: Json)
    ensures t.parameters.None? ==> p == JObj(map[])
    ensures t.parameters.Some? ==> p == t.parameters.value
  {
    if t.parameters.Some? then t.parameters.value else JObj(map[])
  }

  /** Stores a result; the completion time is stamped only when the task
      is already `completed`. */
  function SetResult(t: Task, r: Json, now: nat): (t': Task)
    ensures t'.result == Some(r)
    ensures t.status == COMPLETED ==> t'.completedAt == Some(now)
    ensures t.status != COMPLETED ==> t'.completedAt == t.completedAt
    ensures t' == t.(result := t'.result, completedAt := t'.completedAt)
  {
    t.(result := Some(r), completedAt := if t.status == COMPLETED then Some(now) else t.completedAt)
  }

  /** The result, or JSON null when the column is NULL. */
  function GetResult(t: Task): (r: Json)
    ensures t.result.None? ==> r == JNull
    ensures t.result.Some? ==> r == t.result.value
  {
    if t.result.Some? then t.result.value else JNull
  }

  lemma ParametersRoundTrip(t: Task, p: Json)
    ensures GetParameters(SetParameters(t, p)) == p
  {
  }

  lemma ResultRoundTrip(t: Task, r: Json, now: nat)
    ensures GetResult(SetResult(t, r, now)) == r
  {
  }

  /** The keys of the dictionary the server sends for a task. */
  const TaskKeys: set<string> := {
    "id", "title", "description", "task_type", "parameters", "status",
    "priority", "result", "error_message", "agent_id", "parent_task_id",
    "created_at", "updated_at", "completed_at"}

  /** The dictionary the server sends for a task. */
  function TaskDict(t: Task): (d: Json)
    ensures d.JObj? && d.fields.Keys == TaskKeys
    ensures d.fields["id"] == JNum(t.id)
    ensures d.fields["status"] == JStr(t.status)
    ensures d.fields["task_type"] == JStr(t.taskType)
    ensures d.fields["title"] == JStr(t.title)
    ensures d.fields["description"] == JStr(t.description)
    ensures d.fields["priority"] == JNum(t.priority)
    ensures d.fields["parameters"] == GetParameters(t)
    ensures d.fields["result"] == GetResult(t)
    ensures d.fields["error_message"] == OptStr(t.errorMessage)
    ensures d.fields["agent_id"] == OptNum(t.agentId)
    ensures d.fields["completed_at"] == OptNum(t.completedAt)
    ensures t.parameters.None? ==> d.fields["parameters"] == JObj(map[])
    ensures t.result.None? ==> d.fields["result"] == JNull
    ensures t.completedAt.None? ==> d.fields["completed_at"] == JNull
    ensures t.agentId.None? ==> d.fields["agent_id"] == JNull
  {
    JObj(map[
      "id" := JNum(t.id),
      "title" := JStr(t.title),
      "description" := JStr(t.description),
      "task_type" := JStr(t.taskType),
      "parameters" := GetParameters(t),
      "status" := JStr(t.status),
      "priority" := JNum(t.priority),
      "result" := GetResult(t),
      "error_message" := OptStr(t.errorMessage),
      "agent_id" := OptNum(t.agentId),
      "parent_task_id" := OptNum(t.parentTaskId),
      "created_at" := JNum(t.createdAt),
      "updated_at" := JNum(t.updatedAt),
      "completed_at" := OptNum(t.completedAt)])
  }

  /** A freshly built task is sent as `pending`, with `{}` parameters and
      null result, completion time and agent. */
  lemma NewTaskDict(id: nat, title: string, description: string, taskType: string,
                    priority: Option<int>, now: nat)
    ensures var d := TaskDict(NewTask(id, title, description, taskType, priority, now));
      && d.fields["status"] == JStr(PENDING)
      && d.fields["parameters"] == JObj(map[])
      && d.fields["result"] == JNull
      && d.fields["completed_at"] == JNull
      && d.fields["agent_id"] == JNull
      && d.fields["priority"] == JNum(if priority.Some? then priority.value else 1)
  {
  }

  /** Python's type name for a decoded JSON value, as it appears in an
      `AttributeError` message. */
  function PyTypeName(j: Json): string
  {
    match j
    case JNull => "NoneType"
    case JBool(_) => "bool"
    case JNum(_) => "int"
    case JStr(_) => "str"
    case JArr(_) => "list"
    case JObj(_) => "dict"
    case JSimulated(_, _) => "dict"
  }

  /** Whether a decoded JSON value is a Python `dict`. */
  predicate IsDict(j: Json)
  {
    j.JObj? || j.JSimulated?
  }

  /** The simulated execution of a task. Only the `text` branch reads a key
      of the parameters (`parameters.get('prompt', ...)`), so it raises
      `AttributeError` exactly when the task is a text task whose
      parameters are not a dictionary; every other branch returns its
      payload. */
  function SimulateExecution(t: Task): (r: Attempt<Json>)
    ensures r.Raised? <==> t.taskType == "text" && !IsDict(GetParameters(t))
    ensures r.Done? ==> r.value.JSimulated? && r.value.taskType == t.taskType
    ensures t.taskType == "text" && GetParameters(t).JObj? && "prompt" !in GetParameters(t).fields
            ==> r == Done(JSimulated("text", JStr("No prompt provided")))
  {
    var p := GetParameters(t);
    if t.taskType == "text" then
      if p.JObj? then
        Done(JSimulated("text", if "prompt" in p.fields then p.fields["prompt"] else JStr("No prompt provided")))
      else if p.JSimulated? then
        Done(JSimulated("text", JStr("No prompt provided")))
      else
        Raised("'" + PyTypeName(p) + "' object has no attribute 'get'")
    else
      Done(JSimulated(t.taskType, JNull))
  }
}

=== FILE: tasks_api.dfy ===
/** The task endpoints: list, create, update, delete and execute. Each
    handler is a transition of the database together with its answer. */
module TasksApi {
  import opened Common
  import opened TaskRecord
  import opened AgentRecord
  import opened Store
  import opened Sorting

  /** The JSON body of `POST /tasks`; `None` marks an absent key. */
  datatype NewTaskBody = NewTaskBody(
    title: Option<string>,
    description: Option<string>,
    taskType: Option<string>,
    priority: Option<int>,
    parameters: Option<Json>,
    agentId: Option<Json>)

  /** The JSON body of `PUT /tasks/<id>`; `otherKeys` records keys the
      handler ignores, which still make the body non-empty. */
  datatype TaskPatch = TaskPatch(
    title: Option<string>,
    description: Option<string>,
    status: Option<string>,
    priority: Option<int>,
    result: Option<Json>,
    errorMessage: Option<string>,
    otherKeys: bool)

  /** The body of `POST /tasks` as the handler reads it. A falsy body is
      `None`. `parameters` and `agent_id` are kept as sent whenever the key
      is present, `null` included; any other key holding a value of
      another type reads as absent. */
  function DecodeNewTask(j: Json): (r: Option<NewTaskBody>)
    ensures r.None? <==> Falsy(j) || !j.JObj?
    ensures r.Some? ==> (r.value.agentId.Some? <==> "agent_id" in j.fields)
    ensures r.Some? && "agent_id" in j.fields ==> r.value.agentId.value == j.fields["agent_id"]
    ensures r.Some? ==> (r.value.parameters.Some? <==> "parameters" in j.fields)
    ensures r.Some? ==> (r.value.title.Some? <==> "title" in j.fields && j.fields["title"].JStr?)
    ensures r.Some? ==> (r.value.taskType.Some? <==> "task_type" in j.fields && j.fields["task_type"].JStr?)
    ensures r.Some? ==> (r.value.description.Some? <==> "description" in j.fields && j.fields["description"].JStr?)
    ensures r.Some? ==> (r.value.priority.Some? <==> "priority" in j.fields && j.fields["priority"].JNum?)
    ensures r.Some? && "parameters" in j.fields ==> r.value.parameters.value == j.fields["parameters"]
    ensures r.Some? && r.value.title.Some? ==> j.fields["title"] == JStr(r.value.title.value)
    ensures r.Some? && r.value.taskType.Some? ==> j.fields["task_type"] == JStr(r.value.taskType.value)
    ensures r.Some? && r.value.description.Some? ==> j.fields["description"] == JStr(r.value.description.value)
    ensures r.Some? && r.value.priority.Some? ==> j.fields["priority"] == JNum(r.value.priority.value)
  {
    if Falsy(j) || !j.JObj? then None
    else Some(NewTaskBody(StrAt(j, "title"), StrAt(j, "description"), StrAt(j, "task_type"),
                          IntAt(j, "priority"), Field(j, "parameters"), Field(j, "agent_id")))
  }

  /** `Agent.query.get(value)`: the stored agent the value names. A value
      that is not a number, `null` included, names none. */
  function AgentRef(s: Store, v: Json): (r: Option<nat>)
    ensures r.Some? ==> r.value in s.agents && v == JNum(r.value)
    ensures v.JNum? && v.n >= 0 && v.n as nat in s.agents ==> r == Some(v.n as nat)
    ensures !v.JNum? ==> r.None?
  {
    if v.JNum? && v.n >= 0 && v.n as nat in s.agents then Some(v.n as nat) else None
  }

  /** `GET /tasks/<id>`. */
  function GetTask(s: Store, id: nat): (r: Response<Task>)
    ensures id in s.tasks <==> r.Ok?
    ensures r.Ok? ==> r.body == s.tasks[id] && r.code == HTTP_OK
    ensures r.Fail? ==> r.code == HTTP_NOT_FOUND
  {
    if id in s.tasks then Ok(HTTP_OK, s.tasks[id]) else Fail(HTTP_NOT_FOUND, NOT_FOUND_MESSAGE)
  }

  /** The creation time of every task, the column `GET /tasks` orders by. */
  function CreatedAt(s: Store): (rank: map<nat, int>)
    ensures rank.Keys == s.tasks.Keys
    ensures forall k :: k in s.tasks ==> rank[k] == s.tasks[k].createdAt
  {
    map k | k in s.tasks :: s.tasks[k].createdAt
  }

  /** `GET /tasks`: every task exactly once, newest first. */
  method GetTasks(s: Store) returns (ids: seq<nat>, r: seq<Json>)
    ensures multiset(ids) == multiset(s.tasks.Keys)
    ensures DescendingBy(ids, CreatedAt(s))
    ensures forall i, j :: 0 <= i < j < |ids| ==> s.tasks[ids[i]].createdAt >= s.tasks[ids[j]].createdAt
    ensures |r| == |ids| && forall i :: 0 <= i < |ids| ==> r[i] == TaskDict(s.tasks[ids[i]])
  {
    ids := KeysDescending(CreatedAt(s));
    assert forall i :: 0 <= i < |ids| ==> ids[i] in multiset(ids);
    r := seq(|ids|, i requires 0 <= i < |ids| => TaskDict(s.tasks[ids[i]]));
  }

  /** `POST /tasks`. A body without `title` or `task_type` is refused and
      nothing changes. Otherwise a `pending` task is stored under a fresh
      id. With an explicit `agent_id` the task is assigned to that agent
      only if it exists, and no agent changes; without one, the first idle
      agent of the task's type (if any) is assigned and becomes `busy`. */
  function CreateTask(s: Store, body: Option<NewTaskBody>, now: nat): (r: Reply<Task>)
    requires Valid(s)
    ensures Valid(r.store)
    ensures r.response.Fail? <==> body.None? || body.value.title.None? || body.value.taskType.None?
    ensures r.response.Fail? ==>
      r.store == s && r.response == Fail(HTTP_BAD_REQUEST, "Title and task_type are required")
    ensures r.response.Ok? ==>
      var b := body.value;
      var id := s.nextTaskId;
      && r.response.code == HTTP_CREATED
      && r.store.nextTaskId == id + 1
      && r.store.nextAgentId == s.nextAgentId
      && r.store.tasks.Keys == s.tasks.Keys + {id}
      && (forall k :: k in s.tasks ==> r.store.tasks[k] == s.tasks[k])
      && var t := r.store.tasks[id];
      && t.title == b.title.value
      && t.taskType == b.taskType.value
      && t.status == PENDING
      && t.description == (if b.description.Some? then b.description.value else "")
      && t.priority == (if b.priority.Some? then b.priority.value else 1)
      && t.parameters == b.parameters
      && t.result.None? && t.completedAt.None?
    ensures r.response.Ok? ==>
      s.nextTaskId in r.store.tasks && r.response.body == r.store.tasks[s.nextTaskId]
    ensures r.response.Ok? && body.value.agentId.Some? ==>
      && r.store.agents == s.agents
      && r.store.tasks[s.nextTaskId].agentId == AgentRef(s, body.value.agentId.value)
    ensures r.response.Ok? && body.value.agentId.None? ==>
      var pick := PickIdle(s, body.value.taskType.value);
      && r.store.tasks[s.nextTaskId].agentId == pick
      && (pick.None? ==> r.store.agents == s.agents)
      && (pick.Some? ==> r.store.agents == s.agents[pick.value := s.agents[pick.value].(status := BUSY, updatedAt := now)])
  {
    if body.None? || body.value.title.None? || body.value.taskType.None? then
      Reply(s, Fail(HTTP_BAD_REQUEST, "Title and task_type are required"))
    else
      var b := body.value;
      if b.agentId.Some? then
        var t := Created(s.nextTaskId, b, AgentRef(s, b.agentId.value), now);
        Reply(AddTask(s, t), Ok(HTTP_CREATED, t))
      else
        var asg := AutoAssign(s, b.taskType.value, now);
        var t := Created(s.nextTaskId, b, asg.agentId, now);
        Reply(AddTask(asg.store, t), Ok(HTTP_CREATED, t))
  }

  /** A body whose `agent_id` is `null` takes the explicit branch: the
      task gets no agent, and no agent is marked `busy`, even when an idle
      agent of the type exists. */
  lemma NullAgentIdAssignsNone(s: Store, j: Json, now: nat)
    requires Valid(s)
    requires j.JObj? && "agent_id" in j.fields && j.fields["agent_id"] == JNull
    requires StrAt(j, "title").Some? && StrAt(j, "task_type").Some?
    ensures var r := CreateTask(s, DecodeNewTask(j), now);
      && r.response.Ok?
      && r.response.body.agentId.None?
      && r.store.agents == s.agents
  {
  }

  /** The row `POST /tasks` stores for an accepted body. */
  function Created(id: nat, b: NewTaskBody, agentId: Option<nat>, now: nat): (t: Task)
    requires b.title.Some? && b.taskType.Some?
  {
    NewTask(id, b.title.value, if b.description.Some? then b.description.value else "",
            b.taskType.value, b.priority, now).(parameters := b.parameters, agentId := agentId)
  }

  predicate IsEmptyPatch(p: TaskPatch)
  {
    && p.title.None? && p.description.None? && p.status.None?
    && p.priority.None? && p.result.None? && p.errorMessage.None?
    && !p.otherKeys
  }

  /** The patch moves a task that is not `completed` into `completed`. */
  predicate Completes(oldStatus: string, p: TaskPatch)
  {
    p.status.Some? && oldStatus != COMPLETED && p.status.value == COMPLETED
  }

  /** The task after applying a patch, field by field in the handler's
      order. */
  function PatchTask(t: Task, p: TaskPatch, now: nat): (t': Task)
    ensures t'.id == t.id && t'.taskType == t.taskType && t'.agentId == t.agentId
    ensures t'.parameters == t.parameters && t'.createdAt == t.createdAt
    ensures t'.title == (if p.title.Some? then p.title.value else t.title)
    ensures t'.description == (if p.description.Some? then p.description.value else t.description)
    ensures t'.status == (if p.status.Some? then p.status.value else t.status)
    ensures t'.priority == (if p.priority.Some? then p.priority.value else t.priority)
    ensures t'.result == (if p.result.Some? then p.result else t.result)
    ensures t'.errorMessage == (if p.errorMessage.Some? then p.errorMessage else t.errorMessage)
    ensures Completes(t.status, p) || (p.result.Some? && t'.status == COMPLETED) ==> t'.completedAt == Some(now)
    ensures !Completes(t.status, p) && !(p.result.Some? && t'.status == COMPLETED) ==> t'.completedAt == t.completedAt
  {
    var status := if p.status.Some? then p.status.value else t.status;
    // `set_result` stamps the completion time when the status, already
    // patched, is `completed`.
    var stamp := Completes(t.status, p) || (p.result.Some? && status == COMPLETED);
    var title := if p.title.Some? then p.title.value else t.title;
    var description := if p.description.Some? then p.description.value else t.description;
    var priority := if p.priority.Some? then p.priority.value else t.priority;
    var result := if p.result.Some? then p.result else t.result;
    var errorMessage := if p.errorMessage.Some? then p.errorMessage else t.errorMessage;
    var completedAt := if stamp then Some(now) else t.completedAt;
    Task(t.id, title, description, t.taskType, t.parameters, status, priority, result,
         errorMessage, t.createdAt, now, completedAt, t.agentId, t.parentTaskId)
  }

  /** `PUT /tasks/<id>`. Only the fields present change and any status is
      accepted. Only a move from another status into `completed` stamps the
      completion time and frees the assigned agent; a result stored on a
      task that ends `completed` stamps it as well. */
  function UpdateTask(s: Store, id: nat, body: Option<TaskPatch>, now: nat): (r: Reply<Task>)
    requires Valid(s)
    ensures Valid(r.store)
    ensures id !in s.tasks ==> r == Reply(s, Fail(HTTP_NOT_FOUND, NOT_FOUND_MESSAGE))
    ensures id in s.tasks && (body.None? || IsEmptyPatch(body.value)) ==>
      r == Reply(s, Fail(HTTP_BAD_REQUEST, "No data provided"))
    ensures r.response.Ok? <==> id in s.tasks && body.Some? && !IsEmptyPatch(body.value)
    ensures id in s.tasks && body.Some? && !IsEmptyPatch(body.value) ==>
      var p := body.value;
      var t := s.tasks[id];
      && id in r.store.tasks
      && var t' := r.store.tasks[id];
      && r.response == Ok(HTTP_OK, t')
      && r.store.tasks.Keys == s.tasks.Keys
      && r.store.nextTaskId == s.nextTaskId && r.store.nextAgentId == s.nextAgentId
      && (forall k :: k in s.tasks && k != id ==> r.store.tasks[k] == s.tasks[k])
      && t' == PatchTask(t, p, now)
      && (Completes(t.status, p) ==> r.store.agents == FreeAgent(s, t.agentId, now).agents)
      && (!Completes(t.status, p) ==> r.store.agents == s.agents)
  {
    if id !in s.tasks then Reply(s, Fail(HTTP_NOT_FOUND, NOT_FOUND_MESSAGE))
    else if body.None? || IsEmptyPatch(body.value) then Reply(s, Fail(HTTP_BAD_REQUEST, "No data provided"))
    else
      var p := body.value;
      var t := s.tasks[id];
      var t' := PatchTask(t, p, now);
      var s1 := if Completes(t.status, p) then FreeAgent(s, t.agentId, now) else s;
      Reply(PutTask(s1, t'), Ok(HTTP_OK, t'))
  }

  /** `DELETE /tasks/<id>`. The task is removed; its agent is freed only if
      the task was still `pending` or `in_progress`. */
  function DeleteTask(s: Store, id: nat, now: nat): (r: Reply<Json>)
    requires Valid(s)
    ensures Valid(r.store)
    ensures id !in s.tasks ==> r == Reply(s, Fail(HTTP_NOT_FOUND, NOT_FOUND_MESSAGE))
    ensures id in s.tasks ==>
      var t := s.tasks[id];
      && r.response == Ok(HTTP_OK, JObj(map["message" := JStr("Task deleted successfully")]))
      && r.store.tasks == s.tasks - {id}
      && r.store.nextTaskId == s.nextTaskId && r.store.nextAgentId == s.nextAgentId
      && (t.status == PENDING || t.status == IN_PROGRESS ==> r.store.agents == FreeAgent(s, t.agentId, now).agents)
      && (t.status != PENDING && t.status != IN_PROGRESS ==> r.store.agents == s.agents)
  {
    if id !in s.tasks then Reply(s, Fail(HTTP_NOT_FOUND, NOT_FOUND_MESSAGE))
    else
      var t := s.tasks[id];
      var s1 := if t.status == PENDING || t.status == IN_PROGRESS then FreeAgent(s, t.agentId, now) else s;
      Reply(s1.(tasks := s1.tasks - {id}), Ok(HTTP_OK, JObj(map["message" := JStr("Task deleted successfully")])))
  }

  /** `POST /tasks/<id>/execute`. Only a `pending` task runs. A simulated
      execution that returns ends `completed` with its result and frees the
      agent; one that raises ends `failed` with the exception's message and
      leaves every agent as it was. */
  function ExecuteTask(s: Store, id: nat, now: nat): (r: Reply<Task>)
    requires Valid(s)
    ensures Valid(r.store)
    ensures id !in s.tasks ==> r == Reply(s, Fail(HTTP_NOT_FOUND, NOT_FOUND_MESSAGE))
    ensures id in s.tasks && s.tasks[id].status != PENDING ==>
      r == Reply(s, Fail(HTTP_BAD_REQUEST, "Task is not in pending status"))
    ensures r.response.Ok? <==> id in s.tasks && s.tasks[id].status == PENDING
    ensures id in s.tasks && s.tasks[id].status == PENDING ==>
      var t := s.tasks[id];
      && id in r.store.tasks
      && var t' := r.store.tasks[id];
      && r.response == Ok(HTTP_OK, t')
      && r.store.tasks == s.tasks[id := t']
      && r.store.nextTaskId == s.nextTaskId && r.store.nextAgentId == s.nextAgentId
      && t' == t.(status := t'.status, result := t'.result, errorMessage := t'.errorMessage,
                  completedAt := t'.completedAt, updatedAt := t'.updatedAt)
      && t'.updatedAt == now
      && (t'.status == COMPLETED <==> SimulateExecution(t).Done?)
      && (t'.status == COMPLETED ==>
            && t'.result == Some(SimulateExecution(t).value)
            && t'.completedAt == Some(now)
            && t'.errorMessage == t.errorMessage
            && r.store.agents == FreeAgent(s, t.agentId, now).agents)
      && (t'.status != COMPLETED ==>
            && t'.status == FAILED
            && t'.errorMessage == Some(SimulateExecution(t).message)
            && t'.result == t.result
            && t'.completedAt == t.completedAt
            && r.store.agents == s.agents)
  {
    if id !in s.tasks then Reply(s, Fail(HTTP_NOT_FOUND, NOT_FOUND_MESSAGE))
    else if s.tasks[id].status != PENDING then Reply(s, Fail(HTTP_BAD_REQUEST, "Task is not in pending status"))
    else
      var t := s.tasks[id];
      match SimulateExecution(t)
      case Done(payload) =>
        var t' := SetResult(t.(status := COMPLETED), payload, now).(completedAt := Some(now), updatedAt := now);
        Reply(FreeAgent(PutTask(s, t'), t.agentId, now), Ok(HTTP_OK, t'))
      case Raised(message) =>
        var t' := t.(status := FAILED, errorMessage := Some(message), updatedAt := now);
        Reply(PutTask(s, t'), Ok(HTTP_OK, t'))
  }

  /** Executing a task twice: the second request is refused and changes
      nothing, because the first one left the task `completed` or
      `failed`. */
  lemma ExecuteOnlyOnce(s: Store, id: nat, now: nat, later: nat)
    requires Valid(s)
    ensures var r1 := ExecuteTask(s, id, now);
      ExecuteTask(r1.store, id, later) == Reply(r1.store, Fail(HTTP_BAD_REQUEST, "Task is not in pending status"))
        || r1.response.Fail?
  {
  }
}
